=== FILE: README.md ===
# A model of vzautomation's automator and setup workflow

vzautomation boots a macOS virtual machine and drives its first-run setup
assistant. It types into the guest through synthesised key events, reads the
guest display with text recognition, and polls until the screen shows what
the next step expects. This project models that core in Dafny and proves
properties of the model:

- `Keyboard` (keyboard.dfy): the five modifier flags as an option set with a
  raw value, keys as a Carbon virtual key code plus modifiers, `modify`, and
  the character table `Key.from` that maps Unicode scalars to keys.
- `Synthesis` (synthesis.dfy): `hold`, `release`, `press(key:times:)`,
  `press(keys:)` and `type(_:)` as the key events they post. A small
  keyboard-state interpretation (`Deliver`) says which keys are down after a
  sequence of events.
- `Display` (display.dfy): shaping recognised text (`readText`), the
  `TextCondition` checks behind `has(text:)`, the lock discipline of
  `withSurface`, `detect(image:at:)` and `screenshot(rect:)`.
- `Polling` (polling.dfy): the `wait(until:)` loop, with `waitForDisplay` and
  `wait(forText:)` built on it.
- `Steps` (steps.dfy): workflow steps, step identity and
  `update(step:state:)`.
- `Workflows` (workflow.dfy): `VZWorkflow`, the step wrapper, the screenshot
  helper and the eleven-step `run(automator:)`. Each step is a script of
  waits, key presses, typing and one early-return query.
- `Pools` (pool.dfy): the round-robin `Pool<T>` of render buffers.
- `Machine` (machine.dfy): CPU and memory sizing, the guard order of
  `createPlatform()` and the bundle's file paths.
- `Outcomes` (outcomes.dfy): the `Result` and `Option` types used throughout.
  A Swift `throws` becomes a `Result`, and `nil` becomes `None`.

The environment is modelled as input, not computed:

- Text recognition, feature prints and their distances are inputs.
- The frame buffer's presence and contents are inputs.
- The host's processor count and the framework's allowed ranges are inputs.
- The file system's answers are inputs.
- Each poll of a wait is an input: how the sleep before it ended (it may
  throw) and what the callback saw. A callback may answer true or false,
  or throw.
- Workflow scripts consume a sequence of answers, one per wait or
  `has(text:)` query. A wait answered `Ok(false)` never returns.

Three behaviours of the code shape the model:

- The polling wait sleeps 50 ms before every evaluation, not after it
  (VZAutomator+Helpers.swift lines 12-18). A condition that first holds on
  its third evaluation returns after three sleeps (`Polling.ThirdTimeLucky`).
- `run(automator:)` takes a screenshot after each of the first ten steps and
  none after the account step. A full run adds ten screenshots for eleven
  steps (`Workflows.Run`).
- A run has three endings: every step done, a step that throws, or a wait
  that never returns. In the third the run stalls with its current step
  still running.

Within the code, `Step.State` declares a `waiting` case, but the step
wrapper moves a step to `.running`. The model has one in-progress state,
`Running`, for both.

## Model

| member | source | states |
|---|---|---|
| Keyboard.RawValue | VZAutomation/VZAutomator/VZAutomator+Keyboard.swift:124-133 | any set of the five flags has a raw value below 32, so the flags occupy the low five bits of the option set |
| Keyboard.FromRawValue | VZAutomation/VZAutomator/VZAutomator+Keyboard.swift:124-133 | a flag is in the set a raw value denotes exactly when that flag's bit is set |
| Keyboard.RawValueRoundTrip | VZAutomation/VZAutomator/VZAutomator+Keyboard.swift:124-133 | the flags are distinct bits: decoding a set's raw value gives the set back, and the raw value is 0 exactly for `none` |
| Keyboard.RawValueOnto | VZAutomation/VZAutomator/VZAutomator+Keyboard.swift:124-133 | every 5-bit raw value is the raw value of the set it denotes |
| Keyboard.RawValueUnion | VZAutomation/VZAutomator/VZAutomator+Keyboard.swift:164-173 | the union of two flag sets has the bitwise or of their raw values |
| Keyboard.ModifyUnion | VZAutomation/VZAutomator/VZAutomator+Keyboard.swift:164-173 | `modify` keeps the key code and never drops a flag; the result has exactly the old flags plus the added ones |
| Keyboard.ModifyIdempotent | VZAutomation/VZAutomator/VZAutomator+Keyboard.swift:164-173 | adding the same modifiers twice equals adding them once |
| Keyboard.ModifyCommutes | VZAutomation/VZAutomator/VZAutomator+Keyboard.swift:164-173 | the order in which modifiers are added does not matter (`.shift.alt` is `.alt.shift`) |
| Keyboard.Key.Modify | VZAutomation/VZAutomator/VZAutomator+Keyboard.swift:170-172 | `modify` gives the same key code with the given flags added to the key's own; Keyboard.ModifyUnion, ModifyIdempotent and ModifyCommutes state its properties |
| Keyboard.Key.WithControl | VZAutomation/VZAutomator/VZAutomator+Keyboard.swift:165 | `.control` is `modify(.control)`: the same key with control added (Keyboard.ModifyUnion) |
| Keyboard.Key.WithShift | VZAutomation/VZAutomator/VZAutomator+Keyboard.swift:166 | `.shift` is `modify(.shift)`: the same key with shift added (Keyboard.ModifyUnion); Keyboard.UppercaseLetter shows it is what upper-case letters use |
| Keyboard.Key.WithAlt | VZAutomation/VZAutomator/VZAutomator+Keyboard.swift:167 | `.alt` is `modify(.alt)`: the same key with alt added (Keyboard.ModifyUnion) |
| Keyboard.Key.WithFn | VZAutomation/VZAutomator/VZAutomator+Keyboard.swift:168 | `.fn` is `modify(.fn)`: the same key with fn added (Keyboard.ModifyUnion) |
| Keyboard.Plain | VZAutomation/VZAutomator/VZAutomator+Keyboard.swift:139-142 | `Key(code:)` with the default `.none`: a key with no modifiers, as Keyboard.LowercaseLetter and Keyboard.SpaceKeys use it |
| Keyboard.FromScalar | VZAutomation/VZAutomator/VZAutomator+Keyboard.swift:322-428 | a Unicode scalar is typed by at most one key |
| Keyboard.FromString | VZAutomation/VZAutomator/VZAutomator+Keyboard.swift:316-320 | a string yields at most one key per scalar; scalars outside the table are skipped |
| Keyboard.FromStringAppend | VZAutomation/VZAutomator/VZAutomator+Keyboard.swift:316-320 | the keys of `s + t` are the keys of `s` followed by the keys of `t` |
| Keyboard.LowercaseLetter | VZAutomation/VZAutomator/VZAutomator+Keyboard.swift:373-398 | a lower-case ASCII letter is its own letter key, with no modifiers |
| Keyboard.UppercaseLetter | VZAutomation/VZAutomator/VZAutomator+Keyboard.swift:400-425 | an upper-case ASCII letter is the same letter key, with exactly shift |
| Keyboard.LettersOffDigitRow | VZAutomation/VZAutomator/VZAutomator+Keyboard.swift:329-371 | no ASCII letter is typed on the digit row, so the letter cases are the ones that apply to letters |
| Keyboard.DigitRowScalar | VZAutomation/VZAutomator/VZAutomator+Keyboard.swift:329-371 | a scalar of the digit row is typed by its digit key with that row's modifiers |
| Keyboard.DigitRowKeys | VZAutomation/VZAutomator/VZAutomator+Keyboard.swift:329-371 | each digit key types its digit bare, its shifted symbol with shift, its alt symbol with alt, and its shift-alt symbol with both |
| Keyboard.SpaceKeys | VZAutomation/VZAutomator/VZAutomator+Keyboard.swift:324-327 | a space is the bare space bar, and U+00A0 is the space bar with alt |
| Keyboard.AdminCodes | VZAutomationTests/VZAutomationTests.swift:17-22 | "admin" becomes five unmodified keys with codes 0, 2, 46, 34 and 45 |
| Keyboard.DigitRowLegend | VZAutomation/VZAutomator/VZAutomator+Keyboard.swift:329-371 | the digit-row table and the key legends agree in both directions: a scalar maps to a digit key and modifiers exactly when that key with those modifiers has that legend |
| Keyboard.RowToLegend | VZAutomation/VZAutomator/VZAutomator+Keyboard.swift:329-371 | every digit-row scalar is the legend of the key it maps to |
| Keyboard.LegendToRow | VZAutomation/VZAutomator/VZAutomator+Keyboard.swift:329-371 | every legend maps back to its own key and modifiers |
| Keyboard.DigitOfCode | VZAutomation/VZAutomator/VZAutomator+Keyboard.swift:262-271 | a digit recognised from a code is one whose key has that code |
| Keyboard.LetterOfCode | VZAutomation/VZAutomator/VZAutomator+Keyboard.swift:236-261 | a letter recognised from a code is one whose key has that code |
| Keyboard.CodeTablesInverse | VZAutomation/VZAutomator/VZAutomator+Keyboard.swift:236-312 | the letter and digit codes are injective and disjoint, and none of them is the space, tab or return code |
| Keyboard.DigitCodesInverse | VZAutomation/VZAutomator/VZAutomator+Keyboard.swift:262-271 | each digit code identifies its digit, is no letter's code, and is not space, tab or return |
| Keyboard.LetterCodesInverse | VZAutomation/VZAutomator/VZAutomator+Keyboard.swift:236-261 | each letter code identifies its letter, is no digit's code, and is not space, tab or return |
| Keyboard.ScalarGlyph | VZAutomation/VZAutomator/VZAutomator+Keyboard.swift:322-428 | every key the table produces for a scalar types that scalar back |
| Keyboard.GlyphScalar | VZAutomation/VZAutomator/VZAutomator+Keyboard.swift:322-428 | every key with a legend is the one key the table produces for that legend |
| Keyboard.TableInverse | VZAutomation/VZAutomator/VZAutomator+Keyboard.swift:322-428 | the table is a bijection: scalar `c` maps to key `k` exactly when `k` types `c` |
| Synthesis.Ordered | VZAutomation/VZAutomator/VZAutomator+Keyboard.swift:77-92 | modifier events list each flag of the set once, and no other flag, in the fixed order shift, control, alt, command, fn |
| Synthesis.Emit | VZAutomation/VZAutomator/VZAutomator+Keyboard.swift:89-91 | one event per listed modifier, in list order, without flags, carrying that modifier's left-hand key code |
| Synthesis.KeyEvents | VZAutomation/VZAutomator/VZAutomator+Keyboard.swift:54-75 | the events for one direction of a key: one per modifier plus the main key's, all in that direction and without flags; the main key's down comes last and its up comes first |
| Synthesis.Hold | VZAutomation/VZAutomator/VZAutomator+Keyboard.swift:42-46 | holding a key posts one key-down per modifier and then one for the key itself; the key's down comes last and every event is flagless |
| Synthesis.HoldOrder | VZAutomation/VZAutomator/VZAutomator+Keyboard.swift:54-66 | the modifier downs of a hold come in canonical order, before the main key |
| Synthesis.Release | VZAutomation/VZAutomator/VZAutomator+Keyboard.swift:48-52 | releasing a key posts the key's up first and then one key-up per modifier, all flagless |
| Synthesis.ReleaseOrder | VZAutomation/VZAutomator/VZAutomator+Keyboard.swift:66-73 | the modifier ups follow the main key's up in the same canonical order as the downs, not reversed |
| Synthesis.SingleModifier | VZAutomation/VZAutomator/VZAutomator+Keyboard.swift:54-92 | for a key with one modifier: modifier down then key down; key up then modifier up |
| Synthesis.PressLength | VZAutomation/VZAutomator/VZAutomator+Keyboard.swift:22-27 | pressing a key `times` times posts `times * (2m + 2)` events, where `m` is its number of modifiers |
| Synthesis.PressSplit | VZAutomation/VZAutomator/VZAutomator+Keyboard.swift:22-27 | `a + b` presses are `a` presses followed by `b` presses |
| Synthesis.PressTwiceSingle | VZAutomation/VZAutomator/VZAutomator+Keyboard.swift:22-27 | pressing a one-modifier key twice gives the exact 8-event sequence: two rounds of modifier down, key down, key up, modifier up |
| Synthesis.ShiftTabTwice | VZAutomation/Workflow/Workflow+Run.swift:104-117 | the Apple ID step's shift-tab pressed twice is the exact 8 events on the left-shift (56) and tab (48) codes |
| Synthesis.DeliverEmit | VZAutomation/VZAutomator/VZAutomator+Keyboard.swift:89-91 | delivering modifier events puts down, or lifts, exactly the listed modifiers' keys |
| Synthesis.DeliverModifiers | VZAutomation/VZAutomator/VZAutomator+Keyboard.swift:77-92 | a key's modifier events put down, or lift, exactly the keys standing for its flags |
| Synthesis.HoldPresses | VZAutomation/VZAutomator/VZAutomator+Keyboard.swift:42-46 | after a hold, the key and all its modifier keys are down, added to whatever was already down |
| Synthesis.ReleaseLifts | VZAutomation/VZAutomator/VZAutomator+Keyboard.swift:48-52 | after a release, the key and all its modifier keys are up, and nothing else changed |
| Synthesis.HoldRelease | VZAutomation/VZAutomator/VZAutomator+Keyboard.swift:29-52 | hold and release are inverse on the keyboard state: one adds exactly the keys the other removes |
| Synthesis.PressLifts | VZAutomation/VZAutomator/VZAutomator+Keyboard.swift:22-27 | after at least one press, every key the press involved is up; a press from a state where none of them was down leaves the state unchanged |
| Synthesis.PressKeysAppend | VZAutomation/VZAutomator/VZAutomator+Keyboard.swift:16-20 | pressing `a + b` presses the keys of `a` and then those of `b` |
| Synthesis.TypeAppend | VZAutomation/VZAutomator/VZAutomator+Keyboard.swift:12-14 | typing `s + t` types `s` and then `t` |
| Synthesis.Press | VZAutomation/VZAutomator/VZAutomator+Keyboard.swift:22-27 | `press(key:times:)`: its length, its splitting and its effect on the keyboard are stated by Synthesis.PressLength, PressSplit, PressTwiceSingle and PressLifts |
| Synthesis.PressKeys | VZAutomation/VZAutomator/VZAutomator+Keyboard.swift:16-20 | `press(keys:)`: Synthesis.PressKeysAppend and PressKeysLifts state that it presses the keys in list order and leaves no new key down |
| Synthesis.Type | VZAutomation/VZAutomator/VZAutomator+Keyboard.swift:12-14 | `type(_:)`: the keys of the character table pressed in order; Synthesis.TypeAppend, PressKeysLifts and Keyboard.AdminCodes state its properties |
| Synthesis.PressKeysLifts | VZAutomation/VZAutomator/VZAutomator+Keyboard.swift:12-20 | pressing or typing never leaves a key down that was not already down |
| Display.Lower | VZAutomation/VZAutomator/VZAutomator+Display.swift:62-75 | lower-casing keeps the length and lower-cases each letter in place |
| Display.Block | VZAutomation/VZAutomator/VZAutomator+Display.swift:69-74 | a text block keeps its observation's bounding box, and its string has no upper-case letter |
| Display.ReadText | VZAutomation/VZAutomator/VZAutomator+Display.swift:62-75 | no frame buffer gives no text and takes no lock; a failed request rethrows its error; otherwise there is one block per observation, in order. With a frame buffer the lock is taken, and released exactly when the read does not throw |
| Display.AnalyzeDisplay | VZAutomation/VZAutomator/VZAutomator+Display.swift:154-160 | the recognition request runs exactly when there is a frame buffer, and its error is rethrown. The frame buffer is locked first and unlocked exactly when the request does not throw |
| Display.SomeContained | VZAutomation/VZAutomator/VZAutomator+Display.swift:50-59 | `.any` holds exactly when some needle occurs in the text |
| Display.EveryContained | VZAutomation/VZAutomator/VZAutomator+Display.swift:50-59 | `.all` holds exactly when every needle occurs in the text |
| Display.HasText | VZAutomation/VZAutomator/VZAutomator+Display.swift:50-59 | a recognition error propagates; otherwise the answer is whether the condition holds of the recognised, lower-cased, joined text |
| Display.HasString | VZAutomation/VZAutomator/VZAutomator+Display.swift:44-46 | `has(text:)` for a single string is `.any` of that string, which is true exactly when the string occurs in the text |
| Display.NoneIsNotAny | VZAutomation/VZAutomator/VZAutomator+Display.swift:50-59 | `.none(L)` holds exactly when `.any(L)` does not |
| Display.EmptyConditions | VZAutomation/VZAutomator/VZAutomator+Display.swift:50-59 | `.all([])` and `.none([])` always hold, and `.any([])` never does |
| Display.ConditionsMonotone | VZAutomation/VZAutomator/VZAutomator+Display.swift:50-59 | adding needles can only make `.any` true and can only make `.all` false |
| Display.UppercaseNeedleNeverMatches | VZAutomation/VZAutomator/VZAutomator+Display.swift:50-75 | a needle with an upper-case letter never occurs in the lower-cased text, so `.any` and `.all` of it fail and `.none` holds |
| Display.WithSurface | VZAutomation/VZAutomator/VZAutomator+Display.swift:168-183 | without a frame buffer the callback never runs, the result is `nil` and nothing is locked. With one, the callback's value or error passes through. The lock is balanced exactly when the callback did not throw, because a throw skips the unlock |
| Display.DetectIn | VZAutomation/VZAutomator/VZAutomator+Display.swift:93-110 | a reference print error propagates, and a missing reference print finds nothing. Detection succeeds exactly when there is a frame buffer, both prints exist, and the distance is within the threshold. An error from the frame region's print or from the distance comparison is rethrown, and it leaves the frame buffer locked: with a frame buffer and a reference print, the locks balance exactly when detection does not throw. Without a frame buffer nothing is locked |
| Display.DetectAtRegion | VZAutomation/VZAutomator/VZAutomator+Display.swift:88-90 | `detect(image:at:)` looks only at the rectangle with its origin at the point and the reference image's size |
| Display.DetectAt | VZAutomation/VZAutomator/VZAutomator+Display.swift:88-90 | `detect(image:at:)` is detection in the rectangle at the point with the image's size; Display.DetectAtRegion states that nothing outside that rectangle matters |
| Display.Screenshot | VZAutomation/VZAutomator/VZAutomator+Display.swift:134-149 | a screenshot never throws; it yields an image exactly when there is a frame buffer, showing that frame with the crop; its lock is always released |
| Polling.Wait | VZAutomation/VZAutomator/VZAutomator+Helpers.swift:11-19 | each check follows a sleep. The wait returns right after the first check that answers true, and rethrows the first error from a sleep or a check. It keeps waiting exactly as long as every check so far answered false |
| Polling.NeverTrue | VZAutomation/VZAutomator/VZAutomator+Helpers.swift:11-19 | a check that keeps answering false keeps the wait going through any number of polls |
| Polling.ThirdTimeLucky | VZAutomation/VZAutomator/VZAutomator+Helpers.swift:11-19 | a check that first answers true on its third call returns after exactly three sleeps and three calls |
| Polling.WaitForDisplay | VZAutomation/VZAutomator/VZAutomator+Display.swift:123-127 | the display wait ends at the first poll whose sleep throws or that sees a frame buffer: every earlier poll slept and saw none. It returns at a poll that sees one, and throws with the first failing sleep's error, without evaluating that poll, so it never throws while every sleep succeeds. It keeps waiting exactly when every sleep succeeds and no poll sees a frame buffer |
| Polling.DisplaySleepThrowsFirst | VZAutomation/VZAutomator/VZAutomator+Helpers.swift:12-17 | a first sleep that throws ends the display wait with its error after one sleep and no evaluation, though the next poll would have seen a frame buffer |
| Polling.WaitForText | VZAutomation/VZAutomator/VZAutomator+Display.swift:36-40 | the text wait ends at the first poll whose sleep throws, whose recognition throws, or whose text meets the condition: every earlier poll slept and saw the condition fail. It returns where the condition holds and throws with that first error, from the sleep or from the recognition. It keeps waiting exactly when every poll sleeps and sees the condition fail |
| Polling.WaitForString | VZAutomation/VZAutomator/VZAutomator+Display.swift:30-32 | the single-string wait ends at the first poll whose sleep or recognition throws or whose text contains the string: every earlier poll slept and saw no match. It returns at a match, throws with that first error, and keeps waiting exactly when no poll throws or matches |
| Polling.Summary | VZAutomation/VZAutomator/VZAutomator+Helpers.swift:11-19 | a script sees success exactly when the wait returned, and an error exactly when it threw |
| Steps.NewStep | VZAutomation/Workflow/Workflow+Steps.swift:31-35 | a new step has the given id and name and starts idle |
| Steps.Find | VZAutomation/Workflow/Workflow+Steps.swift:12-15 | the step found is the first with the id, and none is found exactly when no step has the id |
| Steps.Update | VZAutomation/Workflow/Workflow+Steps.swift:12-15 | an update moves only the first step with the id to the new state; every other step is unchanged |
| Steps.UpdateThenRead | VZAutomation/Workflow/Workflow+Steps.swift:12-15 | after updating a known step it reads back in the new state; updating an unknown id changes nothing |
| Steps.UpdateKeepsIdentity | VZAutomation/Workflow/Workflow+Steps.swift:12-15 | updates keep every step's id, name and position |
| Steps.UpdateKeepsLookup | VZAutomation/Workflow/Workflow+Steps.swift:12-15 | steps are found by id, so after an update every id still finds the step it found before, or none if it found none |
| Steps.UpdateKeepsFirst | VZAutomation/Workflow/Workflow+Steps.swift:12-15 | an update does not change which step is the first with any given id |
| Steps.UpdateOverwrites | VZAutomation/Workflow/Workflow+Steps.swift:48-53 | a later update of the same step overrides an earlier one |
| Steps.UpdatesCommute | VZAutomation/Workflow/Workflow+Steps.swift:12-15 | updates of different steps can happen in either order |
| Steps.UpdateUnique | VZAutomation/Workflow/Workflow+Steps.swift:12-15 | with unique ids, an update moves exactly the step with that id |
| Pools.Kept | VZAutomation/Surface.swift:16-29 | the pool keeps at most one item per slot, and keeps one for every slot exactly when no creation failed |
| Pools.KeptAppend | VZAutomation/Surface.swift:16-29 | what is kept from two runs of creations is what each run keeps, in order |
| Pools.KeptExactly | VZAutomation/Surface.swift:16-29 | an item is in the pool exactly when some creation returned it |
| Pools.Init | VZAutomation/Surface.swift:16-29 | a new pool holds the successful creations in order, at most `count` of them, with the cursor at the start |
| Pools.Take | VZAutomation/Surface.swift:31-37 | taking gives the item at the cursor and moves the cursor on by one, wrapping at the end; the items never change |
| Pools.Takes | VZAutomation/Surface.swift:31-37 | `j` takes give `j` items and leave the items unchanged |
| Pools.TakesCycle | VZAutomation/Surface.swift:31-37 | the `k`-th of `j` takes gives the item `k` places past the cursor, cyclically, and the cursor ends `j` places on |
| Pools.FreshPoolCycles | VZAutomation/Surface.swift:16-37 | from a new pool, take `k` gives item `k mod n`, and the cursor is always in range |
| Machine.CpuCandidate | VZAutomation/VirtualMachine.swift:75-83 | the requested CPU count leaves one processor for the host, but is at least one |
| Machine.Clamp | VZAutomation/VirtualMachine.swift:75-93 | the clamped value is never above the maximum, never below a minimum that does not exceed it, and is unchanged when already in range |
| Machine.ClampNearest | VZAutomation/VirtualMachine.swift:75-93 | of all allowed values, the clamp picks one nearest to the request |
| Machine.ClampIdempotent | VZAutomation/VirtualMachine.swift:75-93 | clamping twice is clamping once |
| Machine.ComputeCpuCount | VZAutomation/VirtualMachine.swift:75-83 | the CPU count is within the framework's range, and is the host count minus one when that is allowed |
| Machine.LeavesOneForHost | VZAutomation/VirtualMachine.swift:75-83 | a multi-processor host keeps exactly one processor for itself when the framework allows that many |
| Machine.ComputeMemorySize | VZAutomation/VirtualMachine.swift:85-93 | the memory size is within the framework's range, and is 4 GiB when that is allowed |
| Machine.CreatePlatform | VZAutomation/VirtualMachine.swift:46-73 | each outcome comes with the exact inputs that produce it: missing bundle, invalid or unsupported hardware model, invalid machine identifier, a rethrown read error, or the assembled platform on the auxiliary-storage path |
| Machine.GuardOrder | VZAutomation/VirtualMachine.swift:51-65 | the guards run in order and the first failure decides: a missing bundle hides every file problem, and a bad hardware model hides a bad machine identifier |
| Machine.FilePath | VZAutomation/VirtualMachine.swift:31-36 | each bundle file sits directly inside the bundle under its own name |
| Machine.BundleIn | VZAutomation/VirtualMachine.swift:25-29 | the bundle is "VM.bundle" directly inside the home directory |
| Machine.FilesDistinct | VZAutomation/VirtualMachine.swift:31-36 | two bundle files have the same path exactly when they are the same file |
| Machine.NamesDistinct | VZAutomation/VirtualMachine.swift:31-36 | the six bundle file names differ pairwise |
| Workflows.NewWorkflow | VZAutomation/Workflow/Workflow.swift:16-19 | a new workflow has the given steps and no screenshots |
| Workflows.Exec | VZAutomation/Workflow/Workflow+Run.swift:36-168 | a script consumes no more answers than it is given, and fails only with the error of the last answer it consumed |
| Workflows.ExecKeys | VZAutomation/Workflow/Workflow+Run.swift:36-168 | a script performs a prefix of its key actions, in order, and all of them when it completes without an early return |
| Workflows.ExecExpected | VZAutomation/Workflow/Workflow+Run.swift:36-168 | when every wait returns and every query answers false, a script completes, performs all its key actions and consumes exactly its own answers |
| Workflows.ExecAfterExpected | VZAutomation/Workflow/Workflow+Run.swift:36-168 | a leading part of a script given its straight-through answers runs through, performing its key actions, and the rest of the script then runs exactly as it would on its own on the remaining answers |
| Workflows.ExecGateThrows | VZAutomation/Workflow/Workflow+Run.swift:36-168 | a wait or query that throws fails its script with that error, with exactly the key actions before it performed and one answer consumed past them |
| Workflows.ExecWaitNeverReturns | VZAutomation/Workflow/Workflow+Run.swift:36-168 | a wait that never returns stalls its script with exactly the key actions before it performed, none after |
| Workflows.ExecAnswersRunOut | VZAutomation/Workflow/Workflow+Run.swift:36-168 | a script whose answers run out at a wait or query stalls there, with exactly the key actions before it performed |
| Workflows.OnlyAccountReturnsEarly | VZAutomation/Workflow/Workflow+Run.swift:138-167 | of the eleven scripts, only the last one, the account step, can return early |
| Workflows.Script | VZAutomation/Workflow/Workflow+Run.swift:36-168 | each step's script starts by waiting for the screen it expects; Workflows.CountryStep, AccountPrefixWaitsOnce and OnlyAccountReturnsEarly pin the scripts' contents |
| Workflows.CountryStep | VZAutomation/Workflow/Workflow+Run.swift:62-66 | the country step, once its wait returns, tabs three times and presses the space bar, consuming one answer |
| Workflows.CountryEvents | VZAutomation/Workflow/Workflow+Run.swift:62-66 | those two key actions are three tab presses followed by one space press, eight key events in all |
| Workflows.ExecReturnsEarly | VZAutomation/Workflow/Workflow+Run.swift:154-157 | a query that answers true completes its script after the key actions before it and none after |
| Workflows.ExecQueryTrue | VZAutomation/Workflow/Workflow+Run.swift:154-157 | a query that answers true completes the rest of its script at once |
| Workflows.RejectedPasswordCompletes | VZAutomation/Workflow/Workflow+Run.swift:138-167 | when the password is rejected, the account step completes without typing the confirmation |
| Workflows.AccountPrefixWaitsOnce | VZAutomation/Workflow/Workflow+Run.swift:138-153 | before its query, the account step waits exactly once |
| Workflows.KeyActionsEvents | VZAutomation/Workflow/Workflow+Run.swift:36-168 | waits and queries send no key events, so a script's events are those of its key actions |
| Workflows.PrefixEvents | VZAutomation/Workflow/Workflow+Run.swift:36-168 | a script that stops early has sent a prefix of the key events its full run sends |
| Workflows.RunStep | VZAutomation/Workflow/Workflow+Run.swift:17-26 | the step wrapper marks the step running and then done, or errored with the same error rethrown; a script that never finishes leaves it running |
| Workflows.Captured | VZAutomation/Workflow/Workflow+Run.swift:28-34 | at most one image per capture, and one for every capture when the display always had a frame |
| Workflows.CapturedAll | VZAutomation/Workflow/Workflow+Run.swift:28-34 | every capture is kept exactly when none came back empty |
| Workflows.TakeScreenshot | VZAutomation/Workflow/Workflow+Run.swift:28-34 | a screenshot appends the display's image if there is one, and never touches the steps |
| Workflows.RunSteps | VZAutomation/Workflow/Workflow+Run.swift:36-168 | the steps run in order, each script on the answers its predecessors left. Every step before the one the run reached completed its script. If the run stopped early, its outcome is the stopping step's script outcome, the earlier steps are done, that step is errored or running, and the key actions sent are all the earlier steps' followed by those that script performed. A run that reaches the end completes, with every step done and one screenshot per step but the last. Under the straight-through answers it completes with every key action sent |
| Workflows.Finish | VZAutomation/Workflow/Workflow+Run.swift:36-168 | once every step has completed, every step is done, every screenshot was taken, and with the straight-through answers every key action was sent |
| Workflows.Run | VZAutomation/Workflow/Workflow+Run.swift:36-168 | the same guarantees as RunSteps, for the eleven setup-assistant steps, with screenshots after the first ten: each step runs its script on the answers the earlier ones left, and the run ends with the first script that does not complete |
| Workflows.DefaultStepsMatchRun | VZAutomation/AppController.swift:23-33 | the application lists exactly the run's step ids, once each, in run order, all idle |
| Workflows.RunIdsDistinct | VZAutomation/Workflow/Workflow+Run.swift:36-168 | the eleven step ids the run updates are pairwise different |
| Workflows.MarkPrefix | VZAutomation/Workflow/Workflow+Steps.swift:12-15 | marking the first `k` ids of steps listed once each moves exactly the first `k` steps |
| Workflows.RunStates | VZAutomation/Workflow/Workflow+Run.swift:36-168 | for steps listed once each in run order, all idle, a run leaves the steps before the stopping one done, that one in its final state, and the rest idle |
| Workflows.DefaultRunStates | VZAutomation/AppController.swift:23-33 | for the application's steps, each step's state after a run is done, final or idle according to its position relative to where the run stopped |

## Left out

- Posting events: `NSEvent` construction and delivery to the view are not modelled; the model's events are the (direction, flags, code) triples the source builds. The source drops an event when `NSEvent.keyEvent` returns `nil` (VZAutomator+Keyboard.swift lines 112-114); the model assumes construction succeeds.
- `Modifiers.flags` (the conversion to `NSEvent.ModifierFlags`) is not modelled: every synthesised event is posted with empty flags, so the conversion is never used.
- Key codes: the Carbon `kVK_*` header is not part of this model. Its numeric values appear as named constants, and VZAutomationTests.swift pins the codes of the letters it types. Keys the character table never produces, such as the arrows and function keys, are left out.
- Text recognition and image feature prints are inputs. Vision's candidate ranking and the feature-print distance are not modelled, and the `< 2.0` distance threshold is a parameter.
- Display.Contains: a substring test over Unicode scalars. Swift's `contains` compares `Character`s under canonical equivalence, so they differ on combining marks: for the text "e\u{301}" and the needle "e" the model answers true and Swift false, and for the needle "\u{e9}" in that text the model answers false and Swift true.
- Empty needles: `Display.Contains` counts the empty string as occurring in every text. Swift's Foundation and standard-library `contains` disagree on that case, so no property here depends on it.
- Polling.WaitForText: the waits do not trace the frame-buffer lock across polls. A poll whose recognition throws ends the wait, so only that last poll leaves the frame buffer locked; Display.ReadText states the lock trace of one read.
- Display.Lower: lower-cases ASCII letters only. Swift's full Unicode case mapping is not modelled.
- Asynchrony, actors and the clock are not modelled: a sleep is one input tick that succeeds or throws, and wall-clock time is not tracked.
- `wait(forState:)`, `wait(forImage:at:)` and the globe image are opaque wait targets in the workflow scripts; each is answered by the environment like any other wait.
- The UI, rendering, the display link, the grid views, the event log and the VM provisioning and restore code are outside the core and are not modelled.
- Steps: `Step` is a `final class` (Workflow+Steps.swift line 19) that the UI observes and `update` mutates in place. The model treats a step as a value, so reference identity and mutation shared between holders of one step are not modelled.
- Synthesis.Press: takes a natural-number count. In the source `0..<times` traps for a negative `times` (VZAutomator+Keyboard.swift lines 22-23); the model leaves that trap out.
- Step states: the declared `waiting` case and the `.running` the wrapper writes are one state, `Running`.
- Workflows.Exec: scripts record the key actions performed rather than the events posted; `Workflows.Events` maps actions to `Synthesis` events, and `Workflows.CountryEvents` and `Workflows.KeyActionsEvents` connect the two.
- Pools.Take: taking from an empty pool, and creating one with a negative count, trap in the source. The model requires a non-empty pool and uses a natural-number count instead of modelling the trap.
- Bundle paths are lists of path components rather than file URLs.
- Machine.ComputeCpuCount: uses unbounded integers for the CPU count (Swift `Int`); the memory size is a `UInt64`.

=== FILE: display.dfy ===
/** Reading the virtual machine's display (VZAutomator+Display.swift): the
    text conditions evaluated over recognised text, the rectangle an image is
    looked for in, the scoped lock around the frame buffer, and screenshots.

    Vision's text recognition and feature prints are oracles: the model is
    handed what they returned and checks what the automator does with it. */
module Display {
  import opened Outcomes

  // Strings: ASCII lower-casing, joining and substring search.

  /** Lower-cases one ASCII letter; every other scalar is unchanged. */
  function LowerChar(c: char): char {
    if 'A' <= c <= 'Z' then (c as int - 'A' as int + 'a' as int) as char else c
  }

  predicate IsUpper(c: char) {
    'A' <= c <= 'Z'
  }

  /** `lowercased()`, restricted to ASCII letters. */
  function Lower(s: string): (r: string)
    ensures |r| == |s|
    ensures forall i :: 0 <= i < |s| ==> r[i] == LowerChar(s[i])
  {
    if s == [] then [] else [LowerChar(s[0])] + Lower(s[1..])
  }

  /** `joined(separator:)`. */
  function Join(parts: seq<string>, sep: string): string {
    if parts == [] then ""
    else if |parts| == 1 then parts[0]
    else parts[0] + sep + Join(parts[1..], sep)
  }

  /** `needle` occurs in `haystack` starting at position `i`. */
  predicate OccursAt(haystack: string, needle: string, i: int) {
    0 <= i <= |haystack| - |needle| && haystack[i..i + |needle|] == needle
  }

  /** `String.contains(_:)` for a substring. */
  predicate Contains(haystack: string, needle: string) {
    exists i | 0 <= i <= |haystack| :: OccursAt(haystack, needle, i)
  }

  // Recognised text.

  /** A rectangle in the display's coordinates (`CGRect`). */
  datatype Rect = Rect(x: real, y: real, width: real, height: real)

  /** One text observation: Vision's ranked candidate strings for a region
      and the region's bounding box. */
  datatype Observation = Observation(candidates: seq<string>, boundingBox: Rect)

  /** A block of recognised text (`VZAutomator.Text`). */
  datatype Text = Text(str: string, bounds: Rect)

  /** What running the text-recognition request over the frame buffer gave:
      no frame buffer (the request never ran, so it has no results), the
      observations, or an error thrown by the request. */
  datatype Recognition = NoFrameBuffer | Recognized(observations: seq<Observation>) | RecognitionFailed(error: Error)

  /** `topCandidates(10)`. */
  const TopCandidates: nat := 10

  /** The block for one observation: its top ten candidates joined with
      newlines and lower-cased. */
  function Block(o: Observation): (t: Text)
    ensures t.bounds == o.boundingBox
    ensures forall i :: 0 <= i < |t.str| ==> !IsUpper(t.str[i])
  {
    var top := if |o.candidates| <= TopCandidates then o.candidates else o.candidates[..TopCandidates];
    Text(Lower(Join(top, "\n")), o.boundingBox)
  }

  /** `analyzeDisplay(_:)`: run the recognition request on the frame buffer
      inside `withSurface`. Without a frame buffer the request never runs; a
      request that throws leaves the frame buffer locked. */
  function AnalyzeDisplay(r: Recognition): (s: Scoped<()>)
    ensures s.ran <==> !r.NoFrameBuffer?
    ensures s.result.Err? <==> r.RecognitionFailed?
    ensures s.result.Err? ==> s.result.error == r.error
    ensures r.NoFrameBuffer? ==> s.locks == []
    ensures !r.NoFrameBuffer? ==>
      |s.locks| > 0 && s.locks[0] == Lock && (Balanced(s.locks) <==> !r.RecognitionFailed?)
  {
    WithSurface(!r.NoFrameBuffer?, if r.RecognitionFailed? then Err(r.error) else Ok(()))
  }

  /** The texts `readText()` returns: one block per observation, in order;
      no frame buffer reads as no text; a failing request throws. */
  function Texts(r: Recognition): (texts: Result<seq<Text>>)
    ensures r.NoFrameBuffer? ==> texts == Ok([])
    ensures r.RecognitionFailed? ==> texts == Err(r.error)
    ensures r.Recognized? ==>
      (texts.Ok? && |texts.value| == |r.observations|
       && forall i :: 0 <= i < |r.observations| ==> texts.value[i] == Block(r.observations[i]))
  {
    match r
    case NoFrameBuffer => Ok([])
    case Recognized(obs) => Ok(seq(|obs|, i requires 0 <= i < |obs| => Block(obs[i])))
    case RecognitionFailed(e) => Err(e)
  }

  /** What `readText()` returned and what it did to the frame buffer's lock. */
  datatype TextRead = TextRead(texts: Result<seq<Text>>, locks: seq<SurfaceEvent>)

  /** `readText()`: the texts, read while `analyzeDisplay` holds the frame
      buffer's lock. A failing request throws and, as `withSurface` has no
      `defer`, leaves the frame buffer locked. */
  function ReadText(r: Recognition): (read: TextRead)
    ensures r.NoFrameBuffer? ==> read.texts == Ok([]) && read.locks == []
    ensures r.RecognitionFailed? ==> read.texts == Err(r.error)
    ensures r.Recognized? ==>
      (read.texts.Ok? && |read.texts.value| == |r.observations|
       && forall i :: 0 <= i < |r.observations| ==> read.texts.value[i] == Block(r.observations[i]))
    ensures !r.NoFrameBuffer? ==>
      |read.locks| > 0 && read.locks[0] == Lock && (Balanced(read.locks) <==> read.texts.Ok?)
  {
    TextRead(Texts(r), AnalyzeDisplay(r).locks)
  }

  function Strings(texts: seq<Text>): (r: seq<string>)
    ensures |r| == |texts|
    ensures forall i :: 0 <= i < |texts| ==> r[i] == texts[i].str
  {
    seq(|texts|, i requires 0 <= i < |texts| => texts[i].str)
  }

  /** The text a condition is searched in: every block's string, joined
      with newlines and lower-cased. */
  function Haystack(texts: seq<Text>): string {
    Lower(Join(Strings(texts), "\n"))
  }

  // Text conditions.

  /** `TextCondition`: `.none`, `.any` and `.all` of a list of needles. */
  datatype TextCondition = NoneOf(needles: seq<string>) | AnyOf(needles: seq<string>) | AllOf(needles: seq<string>)

  /** `strs.contains(where: text.contains)`. */
  function SomeContained(needles: seq<string>, haystack: string): (b: bool)
    ensures b <==> exists i :: 0 <= i < |needles| && Contains(haystack, needles[i])
  {
    if needles == [] then false
    else Contains(haystack, needles[0]) || SomeContained(needles[1..], haystack)
  }

  /** `strs.allSatisfy(text.contains)`. */
  function EveryContained(needles: seq<string>, haystack: string): (b: bool)
    ensures b <==> forall i :: 0 <= i < |needles| ==> Contains(haystack, needles[i])
  {
    if needles == [] then true
    else Contains(haystack, needles[0]) && EveryContained(needles[1..], haystack)
  }

  /** Whether a condition holds of a haystack. Needles are used as given:
      only the haystack is lower-cased. */
  function Holds(cond: TextCondition, haystack: string): bool {
    match cond
    case NoneOf(needles) => !SomeContained(needles, haystack)
    case AnyOf(needles) => SomeContained(needles, haystack)
    case AllOf(needles) => EveryContained(needles, haystack)
  }

  /** `has(text: TextCondition)`: read the text on the display and test the
      condition; an error from the recognition request propagates. What it
      does to the frame buffer's lock is what `ReadText(r)` does. */
  function HasText(r: Recognition, cond: TextCondition): (b: Result<bool>)
    ensures r.RecognitionFailed? ==> b == Err(r.error)
    ensures !r.RecognitionFailed? ==> b.Ok?
    ensures b.Ok? ==> (b.value <==> Holds(cond, Haystack(ReadText(r).texts.value)))
  {
    var texts :- Texts(r);
    Ok(Holds(cond, Haystack(texts)))
  }

  /** `has(text: String)`, the shorthand for `.any([str])`. */
  function HasString(r: Recognition, s: string): (b: Result<bool>)
    ensures b == HasText(r, AnyOf([s]))
    ensures b.Ok? ==> (b.value <==> Contains(Haystack(ReadText(r).texts.value), s))
  {
    HasText(r, AnyOf([s]))
  }

  /** `.none(L)` is the negation of `.any(L)`. */
  lemma NoneIsNotAny(needles: seq<string>, haystack: string)
    ensures Holds(NoneOf(needles), haystack) <==> !Holds(AnyOf(needles), haystack)
  {
  }

  /** The empty lists: `.all([])` and `.none([])` hold, `.any([])` does not. */
  lemma EmptyConditions(haystack: string)
    ensures Holds(AllOf([]), haystack)
    ensures !Holds(AnyOf([]), haystack)
    ensures Holds(NoneOf([]), haystack)
  {
  }

  /** More needles can only help `.any` and only hurt `.all`. */
  lemma ConditionsMonotone(a: seq<string>, b: seq<string>, haystack: string)
    ensures Holds(AnyOf(a), haystack) ==> Holds(AnyOf(a + b), haystack)
    ensures Holds(AllOf(a + b), haystack) ==> Holds(AllOf(a), haystack)
    ensures Holds(AllOf(a + b), haystack) ==> Holds(AllOf(b), haystack)
  {
    if Holds(AnyOf(a), haystack) {
      var i :| 0 <= i < |a| && Contains(haystack, a[i]);
      assert (a + b)[i] == a[i];
    }
    if Holds(AllOf(a + b), haystack) {
      forall i | 0 <= i < |b|
        ensures Contains(haystack, b[i])
      {
        assert (a + b)[|a| + i] == b[i];
      }
      forall i | 0 <= i < |a|
        ensures Contains(haystack, a[i])
      {
        assert (a + b)[i] == a[i];
      }
    }
  }

  /** A lower-cased string has no upper-case letter, so a needle with an
      upper-case letter is never found in the haystack: `.any` and `.all`
      of it fail and `.none` of it holds, whatever is on screen. */
  lemma UppercaseNeedleNeverMatches(texts: seq<Text>, needle: string, k: nat)
    requires k < |needle| && IsUpper(needle[k])
    ensures !Contains(Haystack(texts), needle)
    ensures !Holds(AnyOf([needle]), Haystack(texts))
    ensures !Holds(AllOf([needle]), Haystack(texts))
    ensures Holds(NoneOf([needle]), Haystack(texts))
  {
    var h := Haystack(texts);
    forall i
      ensures !OccursAt(h, needle, i)
    {
      if 0 <= i <= |h| - |needle| {
        assert h[i..i + |needle|][k] == h[i + k] == LowerChar(Join(Strings(texts), "\n")[i + k]);
      }
    }
  }

  // The frame buffer, locked for the duration of a read.

  /** A lock operation `withSurface` performs on the frame buffer. */
  datatype SurfaceEvent = Lock | Unlock

  /** What `withSurface` did: the callback's value (`nil` when there is no
      frame buffer), whether the callback ran, and the lock operations. */
  datatype Scoped<T> = Scoped(result: Result<Option<T>>, ran: bool, locks: seq<SurfaceEvent>)

  function CountOf(locks: seq<SurfaceEvent>, e: SurfaceEvent): nat {
    if locks == [] then 0 else (if locks[0] == e then 1 else 0) + CountOf(locks[1..], e)
  }

  /** Every lock was matched by an unlock. */
  predicate Balanced(locks: seq<SurfaceEvent>) {
    CountOf(locks, Lock) == CountOf(locks, Unlock)
  }

  /** `withSurface`: without a frame buffer the callback never runs and the
      result is `nil`; otherwise lock, run the callback, unlock. There is no
      `defer`, so a callback that throws leaves the frame buffer locked. */
  function WithSurface<T>(hasSurface: bool, callback: Result<T>): (s: Scoped<T>)
    ensures s.ran <==> hasSurface
    ensures !hasSurface ==> s.result == Ok(None) && s.locks == []
    ensures hasSurface && callback.Ok? ==> s.result == Ok(Some(callback.value))
    ensures s.result.Err? <==> hasSurface && callback.Err?
    ensures s.result.Err? ==> s.result.error == callback.error
    ensures hasSurface ==> |s.locks| > 0 && s.locks[0] == Lock
    ensures Balanced(s.locks) <==> !(hasSurface && callback.Err?)
  {
    if !hasSurface then Scoped(Ok(None), false, [])
    else
      match callback
      case Ok(v) => Scoped(Ok(Some(v)), true, [Lock, Unlock])
      case Err(e) => Scoped(Err(e), true, [Lock])
  }

  // Looking for an image.

  /** A Vision feature print; only its identity matters here. */
  datatype FeaturePrint = FeaturePrint(id: nat)

  datatype Point = Point(x: real, y: real)

  /** A reference image's size in pixels (`CGImage.width`, `.height`). */
  datatype ImageSize = ImageSize(width: nat, height: nat)

  /** What `detect(image:in:)` found and what it did to the frame buffer's
      lock. */
  datatype Detection = Detection(found: Result<bool>, locks: seq<SurfaceEvent>)

  /** `detect(image:in:)`. `reference` is the feature-print request's result
      for the reference image, `displayPrint` gives it for the frame cropped
      to a rectangle, and `close` compares two prints (`computeDistance` and
      the `< 2.0` threshold). A reference without a print is "not found";
      a frame region without a print leaves `found` false. An error from
      either print or from the comparison is rethrown; one thrown while the
      frame buffer is locked leaves it locked. */
  function DetectIn(
    reference: Result<Option<FeaturePrint>>,
    hasSurface: bool,
    displayPrint: Rect -> Result<Option<FeaturePrint>>,
    close: (FeaturePrint, FeaturePrint) -> Result<bool>,
    rect: Rect
  ): (d: Detection)
    ensures reference.Err? ==> d == Detection(Err(reference.error), [])
    ensures reference == Ok(None) ==> d == Detection(Ok(false), [])
    ensures !hasSurface ==> d.found.Err? || d.found == Ok(false)
    ensures !hasSurface ==> d.locks == []
    ensures !hasSurface && reference.Ok? ==> d.found == Ok(false)
    ensures d.found == Ok(true) <==>
      (reference.Ok? && reference.value.Some? && hasSurface
       && displayPrint(rect).Ok? && displayPrint(rect).value.Some?
       && close(displayPrint(rect).value.value, reference.value.value) == Ok(true))
    ensures reference.Ok? && reference.value.Some? && hasSurface && displayPrint(rect).Err? ==>
      d.found == Err(displayPrint(rect).error)
    ensures (reference.Ok? && reference.value.Some? && hasSurface
             && displayPrint(rect) == Ok(None)) ==> d.found == Ok(false)
    ensures (reference.Ok? && reference.value.Some? && hasSurface
             && displayPrint(rect).Ok? && displayPrint(rect).value.Some?
             && close(displayPrint(rect).value.value, reference.value.value).Err?) ==>
      d.found == Err(close(displayPrint(rect).value.value, reference.value.value).error)
    ensures reference.Ok? && reference.value.Some? && hasSurface ==>
      |d.locks| > 0 && d.locks[0] == Lock && (Balanced(d.locks) <==> d.found.Ok?)
  {
    match reference
    case Err(e) => Detection(Err(e), [])
    case Ok(None) => Detection(Ok(false), [])
    case Ok(Some(target)) =>
      var body: Result<bool> :=
        match displayPrint(rect)
        case Err(e) => Err(e)
        case Ok(None) => Ok(false)
        case Ok(Some(p)) => close(p, target);
      var scoped := WithSurface(hasSurface, body);
      match scoped.result
      case Err(e) => Detection(Err(e), scoped.locks)
      case Ok(None) => Detection(Ok(false), scoped.locks)
      case Ok(Some(found)) => Detection(Ok(found), scoped.locks)
  }

  /** `detect(image:at:)`: the rectangle with its origin at `p` and the
      reference image's size. */
  function DetectAt(
    reference: Result<Option<FeaturePrint>>,
    hasSurface: bool,
    displayPrint: Rect -> Result<Option<FeaturePrint>>,
    close: (FeaturePrint, FeaturePrint) -> Result<bool>,
    image: ImageSize,
    p: Point
  ): Detection {
    DetectIn(reference, hasSurface, displayPrint, close,
      Rect(p.x, p.y, image.width as real, image.height as real))
  }

  /** `detect(image:at: p)` looks at exactly one region of the frame: the
      one at `p` with the image's width and height. Two frames that agree
      there give the same answer. */
  lemma DetectAtRegion(
    reference: Result<Option<FeaturePrint>>,
    hasSurface: bool,
    print1: Rect -> Result<Option<FeaturePrint>>,
    print2: Rect -> Result<Option<FeaturePrint>>,
    close: (FeaturePrint, FeaturePrint) -> Result<bool>,
    image: ImageSize,
    p: Point
  )
    requires print1(Rect(p.x, p.y, image.width as real, image.height as real))
          == print2(Rect(p.x, p.y, image.width as real, image.height as real))
    ensures DetectAt(reference, hasSurface, print1, close, image, p)
         == DetectAt(reference, hasSurface, print2, close, image, p)
  {
  }

  // Screenshots.

  /** A captured image: the frame it shows, cropped to `crop` if given. */
  datatype Image = Image(frame: nat, crop: Option<Rect>)

  /** `screenshot(rect:)`. `frame` is the frame buffer's current contents,
      if there is one. The callback cannot throw, so neither can this. */
  function Screenshot(frame: Option<nat>, rect: Option<Rect>): (s: Scoped<Image>)
    ensures s.result.Ok?
    ensures s.result.value.Some? <==> frame.Some?
    ensures frame.Some? ==> s.result.value.value == Image(frame.value, rect)
    ensures Balanced(s.locks)
  {
    WithSurface(frame.Some?, Ok(Image(if frame.Some? then frame.value else 0, rect)))
  }
}

=== FILE: keyboard.dfy ===
/** The automator's virtual keyboard: the five modifier flags, keys as a raw
    code plus a modifier set, and the static table from a Unicode scalar to
    the keys that type it (VZAutomator+Keyboard.swift). */
module Keyboard {
  import opened Outcomes

  /** One modifier flag. The declaration order is the canonical order in
      which modifier key events are synthesised. */
  datatype Modifier = Shift | Control | Alt | Command | Fn

  /** The modifier option set; `{}` is `Modifiers.none`. */
  type Modifiers = set<Modifier>

  /** The five flags in canonical order. */
  const Canonical: seq<Modifier> := [Shift, Control, Alt, Command, Fn]

  /** The bit of the option set's 16-bit raw value that a flag occupies. */
  function Bit(m: Modifier): bv16 {
    match m
    case Shift => 1 << 0
    case Control => 1 << 1
    case Alt => 1 << 2
    case Command => 1 << 3
    case Fn => 1 << 4
  }

  /** The raw value of a modifier set: the bitwise or of its flags' bits. */
  function RawValue(ms: Modifiers): (raw: bv16)
    ensures raw < 32
  {
    (if Shift in ms then Bit(Shift) else 0)
    | (if Control in ms then Bit(Control) else 0)
    | (if Alt in ms then Bit(Alt) else 0)
    | (if Command in ms then Bit(Command) else 0)
    | (if Fn in ms then Bit(Fn) else 0)
  }

  /** The modifier set an option-set raw value denotes (`contains`). */
  function FromRawValue(raw: bv16): (ms: Modifiers)
    ensures forall m :: m in ms <==> raw & Bit(m) != 0
  {
    set m | m in Canonical && raw & Bit(m) != 0
  }

  /** The five flags are distinct bits: reading a set back from its raw value
      gives the same set, so `none` (raw value 0) is the only empty set. */
  lemma RawValueRoundTrip(ms: Modifiers)
    ensures FromRawValue(RawValue(ms)) == ms
    ensures RawValue(ms) == 0 <==> ms == {}
  {
    var raw := RawValue(ms);
    forall m
      ensures m in FromRawValue(raw) <==> m in ms
    {
      match m
      case Shift =>
      case Control =>
      case Alt =>
      case Command =>
      case Fn =>
    }
  }

  /** Every raw value below 32 is the raw value of exactly one set. */
  lemma RawValueOnto(raw: bv16)
    requires raw < 32
    ensures RawValue(FromRawValue(raw)) == raw
  {
  }

  /** Set union is the bitwise or of raw values (`OptionSet.union`). */
  lemma RawValueUnion(a: Modifiers, b: Modifiers)
    ensures RawValue(a + b) == RawValue(a) | RawValue(b)
  {
  }

  /** A Carbon virtual key code (`UInt16`). */
  type KeyCode = c: int | 0 <= c < 0x1_0000

  /** A key: a raw code plus the modifiers held while it is pressed. */
  datatype Key = Key(code: KeyCode, modifiers: Modifiers) {

    /** The same physical key with `ms` added to its modifiers. */
    function Modify(ms: Modifiers): Key {
      Key(code, modifiers + ms)
    }

    function WithShift(): Key {
      Modify({Shift})
    }

    function WithControl(): Key {
      Modify({Control})
    }

    function WithAlt(): Key {
      Modify({Alt})
    }

    function WithFn(): Key {
      Modify({Fn})
    }
  }

  /** A key with no modifiers (`Key(code:)`). */
  function Plain(code: KeyCode): Key {
    Key(code, {})
  }

  /** Adding modifiers keeps the code and never drops a flag; every flag of
      the result comes from the key or from the added set. */
  lemma ModifyUnion(k: Key, ms: Modifiers, m: Modifier)
    ensures k.Modify(ms).code == k.code
    ensures m in k.Modify(ms).modifiers <==> m in k.modifiers || m in ms
  {
  }

  /** Adding the same modifiers twice is the same as adding them once. */
  lemma ModifyIdempotent(k: Key, ms: Modifiers)
    ensures k.Modify(ms).Modify(ms) == k.Modify(ms)
  {
  }

  /** The order in which modifiers are added does not matter
      (`.shift.alt == .alt.shift`). */
  lemma ModifyCommutes(k: Key, a: Modifiers, b: Modifiers)
    ensures k.Modify(a).Modify(b) == k.Modify(b).Modify(a)
  {
  }

  // Carbon virtual key codes (kVK_* in HIToolbox/Events.h).

  const SpaceCode: KeyCode := 49
  const TabCode: KeyCode := 48
  const ReturnCode: KeyCode := 36
  const LeftShiftCode: KeyCode := 56
  const LeftControlCode: KeyCode := 59
  const LeftAltCode: KeyCode := 58
  const LeftCommandCode: KeyCode := 55
  const FunctionCode: KeyCode := 63

  /** kVK_ANSI_A .. kVK_ANSI_Z, indexed by the letter's position in the
      alphabet. */
  const LetterCodes: seq<KeyCode> :=
    [0, 11, 8, 2, 14, 3, 5, 4, 34, 38, 40, 37, 46,
     45, 31, 35, 12, 15, 1, 17, 32, 9, 13, 7, 16, 6]

  /** kVK_ANSI_0 .. kVK_ANSI_9, indexed by the digit. */
  const DigitCodes: seq<KeyCode> := [29, 18, 19, 20, 21, 23, 22, 26, 28, 25]

  const Spacebar: Key := Plain(SpaceCode)
  const TabKey: Key := Plain(TabCode)
  const ReturnKey: Key := Plain(ReturnCode)

  type LetterIndex = i: int | 0 <= i < 26
  type DigitIndex = i: int | 0 <= i < 10

  function LetterKey(i: LetterIndex): Key {
    Plain(LetterCodes[i])
  }

  function DigitKey(i: DigitIndex): Key {
    Plain(DigitCodes[i])
  }

  /** U+00A0, the second space-like scalar of the table. */
  const NoBreakSpace: char := '\U{00A0}'

  /** The digit-row part of the table: the digit key and modifiers that type
      `c`, for the digits and their shift, alt and shift+alt symbols. */
  function DigitRow(c: char): Option<(DigitIndex, Modifiers)> {
    match c
    case '0' => Some((0, {}))
    case '1' => Some((1, {}))
    case '2' => Some((2, {}))
    case '3' => Some((3, {}))
    case '4' => Some((4, {}))
    case '5' => Some((5, {}))
    case '6' => Some((6, {}))
    case '7' => Some((7, {}))
    case '8' => Some((8, {}))
    case '9' => Some((9, {}))

    case ')' => Some((0, {Shift}))
    case '!' => Some((1, {Shift}))
    case '@' => Some((2, {Shift}))
    case '#' => Some((3, {Shift}))
    case '$' => Some((4, {Shift}))
    case '%' => Some((5, {Shift}))
    case '^' => Some((6, {Shift}))
    case '&' => Some((7, {Shift}))
    case '*' => Some((8, {Shift}))
    case '(' => Some((9, {Shift}))

    case '\U{00BA}' => Some((0, {Alt}))
    case '\U{00A1}' => Some((1, {Alt}))
    case '\U{2122}' => Some((2, {Alt}))
    case '\U{00A3}' => Some((3, {Alt}))
    case '\U{00A2}' => Some((4, {Alt}))
    case '\U{221E}' => Some((5, {Alt}))
    case '\U{00A7}' => Some((6, {Alt}))
    case '\U{00B6}' => Some((7, {Alt}))
    case '\U{2022}' => Some((8, {Alt}))
    case '\U{00AA}' => Some((9, {Alt}))

    case '\U{201A}' => Some((0, {Shift, Alt}))
    case '\U{2044}' => Some((1, {Shift, Alt}))
    case '\U{20AC}' => Some((2, {Shift, Alt}))
    case '\U{2039}' => Some((3, {Shift, Alt}))
    case '\U{203A}' => Some((4, {Shift, Alt}))
    case '\U{FB01}' => Some((5, {Shift, Alt}))
    case '\U{FB02}' => Some((6, {Shift, Alt}))
    case '\U{2021}' => Some((7, {Shift, Alt}))
    case '\U{00B0}' => Some((8, {Shift, Alt}))
    case '\U{00B7}' => Some((9, {Shift, Alt}))

    case _ => None
  }

  /** The keys that type one Unicode scalar (`Key.from(_: Unicode.Scalar)`):
      one key for a scalar in the table, none for any other. */
  function FromScalar(c: char): (keys: seq<Key>)
    ensures |keys| <= 1
  {
    if c == ' ' then [Spacebar]
    else if c == NoBreakSpace then [Spacebar.WithAlt()]
    else if c == '\t' then [TabKey]
    else if c == '\n' then [ReturnKey]
    else if DigitRow(c).Some? then
      var (d, ms) := DigitRow(c).value;
      [DigitKey(d).Modify(ms)]
    else if 'a' <= c <= 'z' then [LetterKey(c as int - 'a' as int)]
    else if 'A' <= c <= 'Z' then [LetterKey(c as int - 'A' as int).WithShift()]
    else []
  }

  /** The keys that type a string (`Key.from(_: String)`): the per-scalar
      keys, concatenated in order. */
  function FromString(s: string): (keys: seq<Key>)
    ensures |keys| <= |s|
  {
    if s == [] then [] else FromScalar(s[0]) + FromString(s[1..])
  }

  /** `Key.from(s + t)` is `Key.from(s) + Key.from(t)`. */
  lemma {:induction false} FromStringAppend(s: string, t: string)
    ensures FromString(s + t) == FromString(s) + FromString(t)
  {
    if s == [] {
      assert s + t == t;
    } else {
      assert (s + t)[1..] == s[1..] + t;
      FromStringAppend(s[1..], t);
    }
  }

  /** A lower-case ASCII letter is its letter key with no modifiers. */
  lemma LowercaseLetter(c: char)
    requires 'a' <= c <= 'z'
    ensures FromScalar(c) == [Key(LetterCodes[c as int - 'a' as int], {})]
  {
    LettersOffDigitRow(c);
  }

  /** An upper-case ASCII letter is the same letter key with exactly shift. */
  lemma UppercaseLetter(c: char)
    requires 'A' <= c <= 'Z'
    ensures FromScalar(c) == [Key(LetterCodes[c as int - 'A' as int], {Shift})]
  {
    LettersOffDigitRow(c);
    assert {} + {Shift} == {Shift};
  }

  /** No ASCII letter is on the digit row. */
  lemma LettersOffDigitRow(c: char)
    requires 'a' <= c <= 'z' || 'A' <= c <= 'Z'
    ensures DigitRow(c).None?
  {
  }

  /** A scalar of the digit row is typed by its digit key with the row's
      modifiers: no earlier case of the table claims it. */
  lemma DigitRowScalar(c: char)
    requires DigitRow(c).Some?
    ensures FromScalar(c) == [Key(DigitCodes[DigitRow(c).value.0], DigitRow(c).value.1)]
  {
    assert DigitRow(' ').None? && DigitRow(NoBreakSpace).None?;
    assert DigitRow('\t').None? && DigitRow('\n').None?;
    var (d, ms) := DigitRow(c).value;
    assert {} + ms == ms;
  }

  /** Each digit-row key types its digit bare, its shifted symbol with
      shift, its alt symbol with alt and its shift+alt symbol with both. */
  lemma DigitRowKeys(d: DigitIndex)
    ensures FromScalar(DigitLegends[d]) == [Key(DigitCodes[d], {})]
    ensures FromScalar(ShiftedLegends[d]) == [Key(DigitCodes[d], {Shift})]
    ensures FromScalar(AltLegends[d]) == [Key(DigitCodes[d], {Alt})]
    ensures FromScalar(ShiftAltLegends[d]) == [Key(DigitCodes[d], {Shift, Alt})]
  {
    DigitRowLegend(DigitLegends[d], d, {});
    DigitRowScalar(DigitLegends[d]);
    DigitRowLegend(ShiftedLegends[d], d, {Shift});
    DigitRowScalar(ShiftedLegends[d]);
    DigitRowLegend(AltLegends[d], d, {Alt});
    DigitRowScalar(AltLegends[d]);
    DigitRowLegend(ShiftAltLegends[d], d, {Shift, Alt});
    DigitRowScalar(ShiftAltLegends[d]);
  }

  /** Space is the bare space bar; U+00A0 is the space bar with alt. */
  lemma SpaceKeys()
    ensures FromScalar(' ') == [Key(SpaceCode, {})]
    ensures FromScalar(NoBreakSpace) == [Key(SpaceCode, {Alt})]
  {
    assert {} + {Alt} == {Alt};
  }

  /** The keys of the username the account step types: the letter keys
      a, d, m, i, n, whose codes VZAutomationTests.swift pins. */
  lemma AdminCodes()
    ensures |FromString("admin")| == 5
    ensures forall i :: 0 <= i < 5 ==> FromString("admin")[i].modifiers == {}
    ensures Codes(FromString("admin")) == [0, 2, 46, 34, 45]
  {
    var s := "admin";
    LowercaseLetter('a');
    LowercaseLetter('d');
    LowercaseLetter('m');
    LowercaseLetter('i');
    LowercaseLetter('n');
    FromStringAppend("a", "dmin");
    FromStringAppend("d", "min");
    FromStringAppend("m", "in");
    FromStringAppend("i", "n");
    assert FromString("admin") == [LetterKey(0), LetterKey(3), LetterKey(12), LetterKey(8), LetterKey(13)];
  }

  /** The raw codes of a key list (`keys.map(\.code)`). */
  function Codes(keys: seq<Key>): (codes: seq<KeyCode>)
    ensures |codes| == |keys|
    ensures forall i :: 0 <= i < |keys| ==> codes[i] == keys[i].code
  {
    seq(|keys|, i requires 0 <= i < |keys| => keys[i].code)
  }

  // The table read the other way: the character each key's legend shows.

  const DigitLegends: string := "0123456789"
  const ShiftedLegends: string := ")!@#$%^&*("
  const AltLegends: string :=
    "\U{00BA}\U{00A1}\U{2122}\U{00A3}\U{00A2}\U{221E}\U{00A7}\U{00B6}\U{2022}\U{00AA}"
  const ShiftAltLegends: string :=
    "\U{201A}\U{2044}\U{20AC}\U{2039}\U{203A}\U{FB01}\U{FB02}\U{2021}\U{00B0}\U{00B7}"

  /** The character digit key `d` types with modifiers `ms`, if any. */
  function DigitLegend(d: DigitIndex, ms: Modifiers): Option<char> {
    if ms == {} then Some(DigitLegends[d])
    else if ms == {Shift} then Some(ShiftedLegends[d])
    else if ms == {Alt} then Some(AltLegends[d])
    else if ms == {Shift, Alt} then Some(ShiftAltLegends[d])
    else None
  }

  /** The digit-row table and the legends agree, in both directions. */
  lemma DigitRowLegend(c: char, d: DigitIndex, ms: Modifiers)
    ensures DigitRow(c) == Some((d, ms)) <==> DigitLegend(d, ms) == Some(c)
  {
    if DigitRow(c).Some? {
      RowToLegend(c);
    }
    if DigitLegend(d, ms).Some? {
      LegendToRow(d, ms);
    }
  }

  /** Each scalar of the digit row is its key's legend. */
  lemma RowToLegend(c: char)
    requires DigitRow(c).Some?
    ensures DigitLegend(DigitRow(c).value.0, DigitRow(c).value.1) == Some(c)
  {
  }

  /** Each legend is typed by its own key. */
  lemma LegendToRow(d: DigitIndex, ms: Modifiers)
    requires DigitLegend(d, ms).Some?
    ensures DigitRow(DigitLegend(d, ms).value) == Some((d, ms))
  {
    if ms == {} {
    } else if ms == {Shift} {
    } else if ms == {Alt} {
    } else {
      assert ms == {Shift, Alt};
    }
  }

  /** The digit whose key has raw code `code`, if any. */
  function DigitOfCode(code: KeyCode): (d: Option<DigitIndex>)
    ensures d.Some? ==> DigitCodes[d.value] == code
  {
    match code
    case 29 => Some(0)
    case 18 => Some(1)
    case 19 => Some(2)
    case 20 => Some(3)
    case 21 => Some(4)
    case 23 => Some(5)
    case 22 => Some(6)
    case 26 => Some(7)
    case 28 => Some(8)
    case 25 => Some(9)
    case _ => None
  }

  /** The letter (position in the alphabet) whose key has raw code `code`,
      if any. */
  function LetterOfCode(code: KeyCode): (i: Option<LetterIndex>)
    ensures i.Some? ==> LetterCodes[i.value] == code
  {
    match code
    case 0 => Some(0)
    case 11 => Some(1)
    case 8 => Some(2)
    case 2 => Some(3)
    case 14 => Some(4)
    case 3 => Some(5)
    case 5 => Some(6)
    case 4 => Some(7)
    case 34 => Some(8)
    case 38 => Some(9)
    case 40 => Some(10)
    case 37 => Some(11)
    case 46 => Some(12)
    case 45 => Some(13)
    case 31 => Some(14)
    case 35 => Some(15)
    case 12 => Some(16)
    case 15 => Some(17)
    case 1 => Some(18)
    case 17 => Some(19)
    case 32 => Some(20)
    case 9 => Some(21)
    case 13 => Some(22)
    case 7 => Some(23)
    case 16 => Some(24)
    case 6 => Some(25)
    case _ => None
  }

  /** The code tables are injective and do not overlap: each digit code
      and letter code is recognised as its own key and as nothing else. */
  lemma CodeTablesInverse(d: DigitIndex, i: LetterIndex)
    ensures DigitOfCode(DigitCodes[d]) == Some(d)
    ensures LetterOfCode(LetterCodes[i]) == Some(i)
    ensures LetterOfCode(DigitCodes[d]).None? && DigitOfCode(LetterCodes[i]).None?
    ensures DigitCodes[d] !in {SpaceCode, TabCode, ReturnCode}
    ensures LetterCodes[i] !in {SpaceCode, TabCode, ReturnCode}
  {
    DigitCodesInverse(d);
    LetterCodesInverse(i);
  }

  lemma DigitCodesInverse(d: DigitIndex)
    ensures DigitOfCode(DigitCodes[d]) == Some(d) && LetterOfCode(DigitCodes[d]).None?
    ensures DigitCodes[d] !in {SpaceCode, TabCode, ReturnCode}
  {
  }

  lemma LetterCodesInverse(i: LetterIndex)
    ensures LetterOfCode(LetterCodes[i]) == Some(i) && DigitOfCode(LetterCodes[i]).None?
    ensures LetterCodes[i] !in {SpaceCode, TabCode, ReturnCode}
  {
  }

  /** The character a key types according to the table, if any. */
  function Glyph(k: Key): Option<char> {
    if k.code == SpaceCode then
      if k.modifiers == {} then Some(' ')
      else if k.modifiers == {Alt} then Some(NoBreakSpace)
      else None
    else if k.code == TabCode then
      if k.modifiers == {} then Some('\t') else None
    else if k.code == ReturnCode then
      if k.modifiers == {} then Some('\n') else None
    else if DigitOfCode(k.code).Some? then
      DigitLegend(DigitOfCode(k.code).value, k.modifiers)
    else if LetterOfCode(k.code).Some? then
      var i := LetterOfCode(k.code).value;
      if k.modifiers == {} then Some(('a' as int + i) as char)
      else if k.modifiers == {Shift} then Some(('A' as int + i) as char)
      else None
    else None
  }

  /** Every key the table produces reads back as the scalar it was produced
      for. */
  lemma ScalarGlyph(c: char)
    requires FromScalar(c) != []
    ensures Glyph(FromScalar(c)[0]) == Some(c)
  {
    if c == ' ' || c == NoBreakSpace || c == '\t' || c == '\n' {
    } else if DigitRow(c).Some? {
      var (d, ms) := DigitRow(c).value;
      DigitRowLegend(c, d, ms);
      CodeTablesInverse(d, 0);
      assert {} + ms == ms;
    } else if 'a' <= c <= 'z' {
      CodeTablesInverse(0, c as int - 'a' as int);
    } else {
      CodeTablesInverse(0, c as int - 'A' as int);
      assert {} + {Shift} == {Shift};
    }
  }

  /** Every key with a legend is the one key the table produces for it. */
  lemma GlyphScalar(k: Key)
    requires Glyph(k).Some?
    ensures FromScalar(Glyph(k).value) == [k]
  {
    var c := Glyph(k).value;
    if k.code == SpaceCode {
      assert {} + {Alt} == {Alt};
    } else if k.code == TabCode || k.code == ReturnCode {
    } else if DigitOfCode(k.code).Some? {
      var d := DigitOfCode(k.code).value;
      DigitRowLegend(c, d, k.modifiers);
      DigitRowScalar(c);
    } else {
      var i := LetterOfCode(k.code).value;
      if k.modifiers == {} {
        LowercaseLetter(c);
      } else {
        UppercaseLetter(c);
      }
    }
  }

  /** The table is a bijection between the scalars it maps and the keys
      with a legend: `Key.from(c) == [k]` exactly when `k` types `c`. */
  lemma TableInverse(c: char, k: Key)
    ensures FromScalar(c) == [k] <==> Glyph(k) == Some(c)
  {
    if FromScalar(c) == [k] {
      ScalarGlyph(c);
    }
    if Glyph(k) == Some(c) {
      GlyphScalar(k);
    }
  }
}

=== FILE: machine.dfy ===
/** Sizing and platform checks of the virtual machine (`MachineBundle` in
    VirtualMachine.swift).

    The host's processor count, the framework's allowed ranges, the file
    system and the framework's parsers are inputs: the model is handed what
    they answered and checks what the bundle does with it. */
module Machine {
  import opened Outcomes

  /** Swift's `UInt64`. */
  const UInt64Limit: int := 0x1_0000_0000_0000_0000
  type UInt64 = x: int | 0 <= x < UInt64Limit

  /** The virtual CPU count before clamping: one fewer than the host's, but
      at least one. */
  function CpuCandidate(processorCount: int): (c: int)
    ensures c >= 1
    ensures processorCount > 1 ==> c == processorCount - 1
    ensures processorCount <= 1 ==> c == 1
  {
    if processorCount <= 1 then 1 else processorCount - 1
  }

  /** `min(max(v, lo), hi)`, the clamp both sizes go through. */
  function Clamp(v: int, lo: int, hi: int): (r: int)
    ensures r <= hi
    ensures lo <= hi ==> lo <= r
    ensures lo <= v <= hi ==> r == v
  {
    var raised := if v >= lo then v else lo;
    if raised <= hi then raised else hi
  }

  /** When the range is not empty the clamp picks the allowed value nearest
      to the request. */
  lemma ClampNearest(v: int, lo: int, hi: int, w: int)
    requires lo <= w <= hi
    ensures Dist(Clamp(v, lo, hi), v) <= Dist(w, v)
  {
  }

  function Dist(a: int, b: int): nat {
    if a >= b then a - b else b - a
  }

  /** Clamping twice is clamping once. */
  lemma ClampIdempotent(v: int, lo: int, hi: int)
    requires lo <= hi
    ensures Clamp(Clamp(v, lo, hi), lo, hi) == Clamp(v, lo, hi)
  {
  }

  /** `computeCPUCount()`. */
  function ComputeCpuCount(processorCount: int, minAllowed: int, maxAllowed: int): (r: int)
    ensures r <= maxAllowed
    ensures minAllowed <= maxAllowed ==> minAllowed <= r
    ensures minAllowed <= CpuCandidate(processorCount) <= maxAllowed ==> r == CpuCandidate(processorCount)
  {
    Clamp(CpuCandidate(processorCount), minAllowed, maxAllowed)
  }

  /** A host with more than one processor keeps one for itself, when the
      framework allows that many. */
  lemma LeavesOneForHost(processorCount: int, minAllowed: int, maxAllowed: int)
    requires processorCount > 1 && minAllowed <= processorCount - 1 <= maxAllowed
    ensures ComputeCpuCount(processorCount, minAllowed, maxAllowed) == processorCount - 1
  {
  }

  /** The baseline memory size, 4 GiB. */
  const BaselineMemory: UInt64 := 4 * 1024 * 1024 * 1024

  /** `computeMemorySize()`. The clamp of two `UInt64` bounds stays a
      `UInt64`. */
  function ComputeMemorySize(minAllowed: UInt64, maxAllowed: UInt64): (r: UInt64)
    ensures r <= maxAllowed
    ensures minAllowed <= maxAllowed ==> minAllowed <= r
    ensures minAllowed <= BaselineMemory <= maxAllowed ==> r == 4294967296
  {
    Clamp(BaselineMemory, minAllowed, maxAllowed)
  }

  // The platform configuration.

  /** A hardware model the framework parsed; whether this host supports it
      is the framework's answer. */
  datatype HardwareModel = HardwareModel(data: nat, isSupported: bool)

  datatype MachineIdentifier = MachineIdentifier(data: nat)

  /** A path as its components. */
  type Path = seq<string>

  /** `CreationError`. */
  datatype CreationError =
    | MissingBundle(path: Path)
    | InvalidHardwareModel
    | UnsupportedHardwareModel
    | InvalidMachineIdentifier

  datatype Platform = Platform(auxiliaryStorage: Path, hardwareModel: HardwareModel, machineIdentifier: MachineIdentifier)

  /** What `createPlatform()` did: built a platform, threw a
      `CreationError`, or let an error from reading a file propagate. */
  datatype Created = Built(platform: Platform) | Refused(reason: CreationError) | Threw(error: Error)

  /** `createPlatform()`. `bundleExists` is the file system's answer for the
      bundle directory; `hardware` and `machine` are the outcomes of reading
      and parsing the two files (`nil` when the framework rejects the data),
      each consulted only if the checks before it passed. */
  function CreatePlatform(
    base: Path, bundleExists: bool,
    hardware: Result<Option<HardwareModel>>, machine: Result<Option<MachineIdentifier>>)
    : (r: Created)
    ensures r == Refused(MissingBundle(base)) <==> !bundleExists
    ensures r == Refused(InvalidHardwareModel) <==> bundleExists && hardware == Ok(None)
    ensures r == Refused(UnsupportedHardwareModel) <==>
      bundleExists && hardware.Ok? && hardware.value.Some? && !hardware.value.value.isSupported
    ensures r.Built? <==>
      bundleExists && hardware.Ok? && hardware.value.Some? && hardware.value.value.isSupported
      && machine.Ok? && machine.value.Some?
    ensures r.Built? ==>
      r.platform == Platform(FilePath(base, AuxiliaryStorage), hardware.value.value, machine.value.value)
    ensures r.Threw? <==>
      bundleExists && (hardware.Err? || (hardware.value.Some? && hardware.value.value.isSupported && machine.Err?))
    ensures r.Threw? ==> r.error == (if hardware.Err? then hardware.error else machine.error)
  {
    if !bundleExists then Refused(MissingBundle(base))
    else
      match hardware
      case Err(e) => Threw(e)
      case Ok(None) => Refused(InvalidHardwareModel)
      case Ok(Some(model)) =>
        if !model.isSupported then Refused(UnsupportedHardwareModel)
        else
          match machine
          case Err(e) => Threw(e)
          case Ok(None) => Refused(InvalidMachineIdentifier)
          case Ok(Some(id)) => Built(Platform(FilePath(base, AuxiliaryStorage), model, id))
  }

  /** The guards run in order and the first that fails decides: a missing
      bundle hides every file problem, and a bad hardware model hides a bad
      machine identifier. */
  lemma GuardOrder(
    base: Path, hardware: Result<Option<HardwareModel>>, machine: Result<Option<MachineIdentifier>>)
    ensures CreatePlatform(base, false, hardware, machine) == Refused(MissingBundle(base))
    ensures hardware.Err? ==> CreatePlatform(base, true, hardware, machine) == Threw(hardware.error)
    ensures (hardware == Ok(None) || (hardware.Ok? && hardware.value.Some? && !hardware.value.value.isSupported))
      ==> CreatePlatform(base, true, hardware, machine) == CreatePlatform(base, true, hardware, Ok(None))
    ensures CreatePlatform(base, true, hardware, machine) == Refused(InvalidMachineIdentifier) <==>
      hardware.Ok? && hardware.value.Some? && hardware.value.value.isSupported && machine == Ok(None)
  {
  }

  // The bundle's files.

  /** The files in a machine bundle. */
  datatype BundleFile = AuxiliaryStorage | DiskImage | HardwareModelFile | MachineIdentifierFile | RestoreImage | SaveFile

  /** Each file's name inside the bundle. */
  function FileName(f: BundleFile): string {
    match f
    case AuxiliaryStorage => "AuxiliaryStorage"
    case DiskImage => "Disk.img"
    case HardwareModelFile => "HardwareModel"
    case MachineIdentifierFile => "MachineIdentifier"
    case RestoreImage => "RestoreImage.ipsw"
    case SaveFile => "SaveFile.vzvmsave"
  }

  /** `baseURL.appendingPathComponent(name)`. */
  function FilePath(base: Path, f: BundleFile): (p: Path)
    ensures |p| == |base| + 1 && p[..|base|] == base && p[|base|] == FileName(f)
  {
    base + [FileName(f)]
  }

  /** `MachineBundle.create()`: the bundle directory in the home directory. */
  function BundleIn(home: Path): (p: Path)
    ensures |p| == |home| + 1 && p[..|home|] == home && p[|home|] == "VM.bundle"
  {
    home + ["VM.bundle"]
  }

  /** The six files have six different names, so six different paths, all
      directly inside the bundle. */
  lemma FilesDistinct(base: Path, f: BundleFile, g: BundleFile)
    ensures FilePath(base, f) == FilePath(base, g) <==> f == g
  {
    if f != g {
      assert FileName(f) != FileName(g) by {
        NamesDistinct(f, g);
      }
      assert FilePath(base, f)[|base|] != FilePath(base, g)[|base|];
    }
  }

  lemma NamesDistinct(f: BundleFile, g: BundleFile)
    requires f != g
    ensures FileName(f) != FileName(g)
  {
    var a, b := FileName(f), FileName(g);
    if |a| == |b| {
      // Names of equal length start with different letters.
      assert a[0] != b[0];
    }
  }
}

=== FILE: outcomes.dfy ===
/** Failure-carrying datatypes shared by the whole model.

    Swift's `throws` becomes a `Result` whose `Err` carries an opaque error
    value; Swift's optionals become `Option`. */
module Outcomes {

  /** An error thrown by code outside the model (a file read, the OCR
      request, the clock, a feature-print request). Only its identity matters:
      the model checks that it is propagated unchanged. */
  datatype Error = Error(tag: nat)

  /** The outcome of a throwing Swift call. */
  datatype Result<+T> = Ok(value: T) | Err(error: Error) {
    predicate IsFailure() {
      Err?
    }

    function PropagateFailure<U>(): Result<U>
      requires Err?
    {
      Err(error)
    }

    function Extract(): T
      requires Ok?
    {
      value
    }
  }

  /** A Swift optional. */
  datatype Option<+T> = None | Some(value: T)
}

=== FILE: polling.dfy ===
/** The polling wait (`wait(until:)` in VZAutomator+Helpers.swift) and the
    waits built on it in VZAutomator+Display.swift.

    The loop has no timeout: it sleeps 50 ms, evaluates the callback, and
    repeats until the callback answers true or something throws. The model
    runs it over the finite sequence of answers the environment gives; when
    the sequence runs out the loop is still waiting. Time is not modelled;
    a sleep is a counted event. */
module Polling {
  import opened Outcomes
  import Display

  /** The sleep before each evaluation, in milliseconds. */
  const IntervalMs: nat := 50

  /** One iteration as the environment answers it: the outcome of the
      sleep, then the callback's outcome (used only if the sleep returned). */
  datatype Tick = Tick(sleep: Result<()>, check: Result<bool>)

  /** How a wait ended, with the number of sleeps started and callback
      evaluations made. `Waiting` means the answers ran out while the loop
      was still going. */
  datatype WaitOutcome =
    | Returned(sleeps: nat, evaluations: nat)
    | Threw(error: Error, sleeps: nat, evaluations: nat)
    | Waiting(sleeps: nat, evaluations: nat)

  /** An iteration that slept and saw the callback answer false. */
  predicate Quiet(t: Tick) {
    t.sleep.Ok? && t.check == Ok(false)
  }

  /** The first `k` iterations all answered false. */
  predicate QuietFor(ticks: seq<Tick>, k: nat) {
    k <= |ticks| && forall j :: 0 <= j < k ==> Quiet(ticks[j])
  }

  /** The callback first answers true on evaluation `k + 1`. */
  predicate ReturnsAt(ticks: seq<Tick>, k: nat) {
    QuietFor(ticks, k) && k < |ticks| && ticks[k].sleep.Ok? && ticks[k].check == Ok(true)
  }

  /** Iteration `k + 1` throws, from the sleep or from the callback. */
  predicate ThrowsAt(ticks: seq<Tick>, k: nat, e: Error) {
    QuietFor(ticks, k) && k < |ticks|
    && (ticks[k].sleep == Err(e) || (ticks[k].sleep.Ok? && ticks[k].check == Err(e)))
  }

  /** `wait(until:)`. */
  method Wait(ticks: seq<Tick>) returns (outcome: WaitOutcome)
    ensures outcome.evaluations <= outcome.sleeps <= outcome.evaluations + 1
    ensures outcome.sleeps <= |ticks|
    ensures forall k: nat | ReturnsAt(ticks, k) :: outcome == Returned(k + 1, k + 1)
    ensures outcome.Returned? ==>
      (outcome.sleeps > 0 && outcome.evaluations == outcome.sleeps
       && ReturnsAt(ticks, outcome.sleeps - 1))
    ensures outcome.Threw? ==>
      (outcome.sleeps > 0 && ThrowsAt(ticks, outcome.sleeps - 1, outcome.error)
       && (outcome.evaluations < outcome.sleeps <==> ticks[outcome.sleeps - 1].sleep.Err?))
    ensures outcome.Waiting? <==> QuietFor(ticks, |ticks|)
    ensures outcome.Waiting? ==> outcome == Waiting(|ticks|, |ticks|)
    ensures forall k | 0 <= k < |ticks| && ticks[k].sleep.Ok? && ticks[k].check == Ok(true) ::
      !outcome.Waiting? && outcome.sleeps <= k + 1
  {
    var i := 0;
    while i < |ticks|
      invariant i <= |ticks|
      invariant QuietFor(ticks, i)
    {
      var t := ticks[i];
      if t.sleep.Err? {
        return Threw(t.sleep.error, i + 1, i);
      }
      if t.check.Err? {
        return Threw(t.check.error, i + 1, i + 1);
      }
      if t.check.value {
        return Returned(i + 1, i + 1);
      }
      i := i + 1;
    }
    return Waiting(|ticks|, |ticks|);
  }

  /** A callback that keeps answering false keeps the wait going however
      long the environment keeps answering: there is no attempt bound. */
  method NeverTrue(n: nat) returns (outcome: WaitOutcome)
    ensures outcome == Waiting(n, n)
  {
    var ticks := seq(n, _ => Tick(Ok(()), Ok(false)));
    assert QuietFor(ticks, n);
    outcome := Wait(ticks);
  }

  /** A callback that first answers true on its third evaluation: the wait
      returns after exactly three evaluations and three sleeps. */
  method ThirdTimeLucky() returns (outcome: WaitOutcome)
    ensures outcome == Returned(3, 3)
  {
    var ticks := [Tick(Ok(()), Ok(false)), Tick(Ok(()), Ok(false)), Tick(Ok(()), Ok(true))];
    assert ReturnsAt(ticks, 2);
    outcome := Wait(ticks);
  }

  /** One poll as the environment answers it: how the sleep before it
      ended, and what the callback found when it looked. */
  datatype Poll<T> = Poll(sleep: Result<()>, sample: T)

  /** The ticks `waitForDisplay()` sees: each poll's sleep, then a callback
      that cannot throw and answers whether there was a frame buffer. */
  function DisplayTicks(polls: seq<Poll<bool>>): (ticks: seq<Tick>)
    ensures |ticks| == |polls|
    ensures forall i :: 0 <= i < |polls| ==>
      ticks[i].sleep == polls[i].sleep && ticks[i].check == Ok(polls[i].sample)
  {
    seq(|polls|, i requires 0 <= i < |polls| => Tick(polls[i].sleep, Ok(polls[i].sample)))
  }

  /** The ticks `wait(forText:)` sees: each poll's sleep, then the text
      condition tested on that poll's recognition. */
  function TextTicks(polls: seq<Poll<Display.Recognition>>, cond: Display.TextCondition): (ticks: seq<Tick>)
    ensures |ticks| == |polls|
    ensures forall i :: 0 <= i < |polls| ==>
      ticks[i].sleep == polls[i].sleep && ticks[i].check == Display.HasText(polls[i].sample, cond)
  {
    seq(|polls|, i requires 0 <= i < |polls| => Tick(polls[i].sleep, Display.HasText(polls[i].sample, cond)))
  }

  /** `waitForDisplay()`: wait until the view has a frame buffer. Each poll's
      sample says whether the view had one. The callback itself cannot throw;
      only a sleep can. */
  method WaitForDisplay(polls: seq<Poll<bool>>) returns (outcome: WaitOutcome)
    ensures outcome.sleeps <= |polls|
    ensures outcome.Returned? ==> outcome.sleeps > 0 && ReturnsAt(DisplayTicks(polls), outcome.sleeps - 1)
    ensures outcome.Threw? ==> outcome.sleeps > 0 && ThrowsAt(DisplayTicks(polls), outcome.sleeps - 1, outcome.error)
    ensures outcome.Waiting? <==> QuietFor(DisplayTicks(polls), |polls|)
    ensures !outcome.Waiting? ==>
      outcome.sleeps > 0 && forall j :: 0 <= j < outcome.sleeps - 1 ==> polls[j].sleep.Ok? && !polls[j].sample
    ensures outcome.Returned? ==>
      outcome.sleeps > 0 && polls[outcome.sleeps - 1].sleep.Ok? && polls[outcome.sleeps - 1].sample
    ensures outcome.Threw? ==>
      (outcome.sleeps > 0 && polls[outcome.sleeps - 1].sleep == Err(outcome.error)
       && outcome.evaluations == outcome.sleeps - 1)
    ensures (forall j :: 0 <= j < |polls| ==> polls[j].sleep.Ok?) ==> !outcome.Threw?
    ensures outcome.Waiting? <==> forall j :: 0 <= j < |polls| ==> polls[j].sleep.Ok? && !polls[j].sample
  {
    var ticks := DisplayTicks(polls);
    assert forall i :: 0 <= i < |polls| ==> (Quiet(ticks[i]) <==> polls[i].sleep.Ok? && !polls[i].sample);
    outcome := Wait(ticks);
  }

  /** A first sleep that throws ends the display wait with its error, even
      though the next poll would have seen a frame buffer. */
  method DisplaySleepThrowsFirst(e: Error) returns (outcome: WaitOutcome)
    ensures outcome == Threw(e, 1, 0)
  {
    var polls := [Poll(Err(e), false), Poll(Ok(()), true)];
    assert !Quiet(DisplayTicks(polls)[0]);
    outcome := WaitForDisplay(polls);
  }

  /** `wait(forText:)`: wait until the condition holds of the recognised
      text. Each poll's sample is what that evaluation's text request saw. */
  method WaitForText(polls: seq<Poll<Display.Recognition>>, cond: Display.TextCondition)
    returns (outcome: WaitOutcome)
    ensures outcome.sleeps <= |polls|
    ensures outcome.Returned? ==> outcome.sleeps > 0 && ReturnsAt(TextTicks(polls, cond), outcome.sleeps - 1)
    ensures outcome.Threw? ==> outcome.sleeps > 0 && ThrowsAt(TextTicks(polls, cond), outcome.sleeps - 1, outcome.error)
    ensures outcome.Waiting? <==> QuietFor(TextTicks(polls, cond), |polls|)
    ensures !outcome.Waiting? ==>
      outcome.sleeps > 0 && forall j :: 0 <= j < outcome.sleeps - 1 ==>
        polls[j].sleep.Ok? && Display.HasText(polls[j].sample, cond) == Ok(false)
    ensures outcome.Returned? ==>
      (outcome.sleeps > 0 && polls[outcome.sleeps - 1].sleep.Ok?
       && Display.HasText(polls[outcome.sleeps - 1].sample, cond) == Ok(true))
    ensures outcome.Threw? ==>
      (outcome.sleeps > 0
       && (polls[outcome.sleeps - 1].sleep == Err(outcome.error)
           || (polls[outcome.sleeps - 1].sleep.Ok? && polls[outcome.sleeps - 1].sample.RecognitionFailed?
               && outcome.error == polls[outcome.sleeps - 1].sample.error)))
    ensures outcome.Waiting? <==>
      forall j :: 0 <= j < |polls| ==> polls[j].sleep.Ok? && Display.HasText(polls[j].sample, cond) == Ok(false)
    ensures forall k | 0 <= k < |polls| && polls[k].sleep.Ok? && Display.HasText(polls[k].sample, cond) == Ok(true) ::
      !outcome.Waiting? && outcome.sleeps <= k + 1
  {
    var ticks := TextTicks(polls, cond);
    assert forall i :: 0 <= i < |polls| ==>
      (Quiet(ticks[i]) <==> polls[i].sleep.Ok? && Display.HasText(polls[i].sample, cond) == Ok(false));
    outcome := Wait(ticks);
  }

  /** `wait(forText: String)`, the shorthand for `.any([str])`. */
  method WaitForString(polls: seq<Poll<Display.Recognition>>, s: string) returns (outcome: WaitOutcome)
    ensures outcome.sleeps <= |polls|
    ensures outcome.Returned? ==>
      outcome.sleeps > 0 && ReturnsAt(TextTicks(polls, Display.AnyOf([s])), outcome.sleeps - 1)
    ensures outcome.Threw? ==>
      outcome.sleeps > 0 && ThrowsAt(TextTicks(polls, Display.AnyOf([s])), outcome.sleeps - 1, outcome.error)
    ensures outcome.Waiting? <==> QuietFor(TextTicks(polls, Display.AnyOf([s])), |polls|)
    ensures !outcome.Waiting? ==>
      outcome.sleeps > 0 && forall j :: 0 <= j < outcome.sleeps - 1 ==>
        polls[j].sleep.Ok? && Display.HasString(polls[j].sample, s) == Ok(false)
    ensures outcome.Returned? ==>
      (outcome.sleeps > 0 && polls[outcome.sleeps - 1].sleep.Ok?
       && Display.HasString(polls[outcome.sleeps - 1].sample, s) == Ok(true))
    ensures outcome.Threw? ==>
      (outcome.sleeps > 0
       && (polls[outcome.sleeps - 1].sleep == Err(outcome.error)
           || (polls[outcome.sleeps - 1].sleep.Ok? && polls[outcome.sleeps - 1].sample.RecognitionFailed?
               && outcome.error == polls[outcome.sleeps - 1].sample.error)))
    ensures outcome.Waiting? <==>
      forall j :: 0 <= j < |polls| ==> polls[j].sleep.Ok? && Display.HasString(polls[j].sample, s) == Ok(false)
    ensures forall k | 0 <= k < |polls| && polls[k].sleep.Ok? && Display.HasString(polls[k].sample, s) == Ok(true) ::
      !outcome.Waiting? && outcome.sleeps <= k + 1
  {
    outcome := WaitForText(polls, Display.AnyOf([s]));
  }

  /** What a finished or abandoned wait means to the script that called it:
      it returned, it threw, or it never returned. */
  function Summary(outcome: WaitOutcome): (r: Result<bool>)
    ensures r == Ok(true) <==> outcome.Returned?
    ensures r.Err? <==> outcome.Threw?
  {
    match outcome
    case Returned(_, _) => Ok(true)
    case Threw(e, _, _) => Err(e)
    case Waiting(_, _) => Ok(false)
  }
}

=== FILE: pool.dfy ===
/** The round-robin pool of render buffers (`Pool<T>` in Surface.swift).

    `init(count:create:)` calls `create` `count` times and keeps what it
    returns that is not `nil`; `take()` hands out the item at the cursor and
    advances the cursor cyclically. The items never change after `init`. */
module Pools {
  import opened Outcomes

  datatype Pool<T> = Pool(items: seq<T>, index: nat)

  /** The cursor points at an item, or the pool is empty and the cursor is
      still at its start. */
  predicate Valid<T>(p: Pool<T>) {
    p.index < |p.items| || p.index == 0
  }

  /** The non-`nil` values of `created`, in order: the reference for what
      `init` keeps. */
  function Kept<T>(created: seq<Option<T>>): (items: seq<T>)
    ensures |items| <= |created|
    ensures (forall i :: 0 <= i < |created| ==> created[i].Some?) <==> |items| == |created|
  {
    if created == [] then []
    else
      var last := created[|created| - 1];
      Kept(created[..|created| - 1]) + (if last.Some? then [last.value] else [])
  }

  /** Keeping distributes over concatenation. */
  lemma {:induction false} KeptAppend<T>(a: seq<Option<T>>, b: seq<Option<T>>)
    ensures Kept(a + b) == Kept(a) + Kept(b)
    decreases |b|
  {
    if b == [] {
      assert a + b == a;
    } else {
      var b' := b[..|b| - 1];
      assert (a + b)[..|a + b| - 1] == a + b';
      KeptAppend(a, b');
    }
  }

  /** Every kept item came from some call of `create`, and every value
      `create` returned is kept. */
  lemma {:induction false} KeptExactly<T>(created: seq<Option<T>>, x: T)
    ensures x in Kept(created) <==> Some(x) in created
  {
    if created != [] {
      var init := created[..|created| - 1];
      KeptExactly(init, x);
      assert created == init + [created[|created| - 1]];
    }
  }

  /** `init(count:create:)`. `created[i]` is what the `i`-th call of
      `create` returned; `create` is called once per slot. */
  method Init<T>(count: nat, created: seq<Option<T>>) returns (p: Pool<T>)
    requires |created| == count
    ensures p.items == Kept(created) && p.index == 0
    ensures |p.items| <= count
    ensures Valid(p)
  {
    var items: seq<T> := [];
    var i := 0;
    while i < count
      invariant i <= count
      invariant items == Kept(created[..i])
    {
      var item := created[i];
      assert created[..i + 1][..i] == created[..i];
      if item.Some? {
        items := items + [item.value];
      }
      i := i + 1;
    }
    assert created[..count] == created;
    p := Pool(items, 0);
  }

  /** `take()`: the item at the cursor, and the pool with the cursor moved
      on by one, wrapping at the end. An empty pool traps in the source
      (indexing, then `%` by zero), so taking needs an item. */
  function Take<T>(p: Pool<T>): (r: (T, Pool<T>))
    requires Valid(p) && |p.items| > 0
    ensures r.0 == p.items[p.index]
    ensures r.1.items == p.items && Valid(r.1)
    ensures r.1.index == if p.index + 1 == |p.items| then 0 else p.index + 1
  {
    (p.items[p.index], p.(index := (p.index + 1) % |p.items|))
  }

  /** What `j` successive takes return, and the pool after them. */
  function Takes<T>(p: Pool<T>, j: nat): (r: (seq<T>, Pool<T>))
    requires Valid(p) && |p.items| > 0
    ensures |r.0| == j && r.1.items == p.items && Valid(r.1)
    decreases j
  {
    if j == 0 then ([], p)
    else
      var (first, next) := Take(p);
      var (rest, last) := Takes(next, j - 1);
      ([first] + rest, last)
  }

  /** Starting from the cursor at `p.index`, the `k`-th take returns the
      item `k` places further on, cyclically, and the cursor ends `j`
      places on. */
  lemma {:induction false} TakesCycle<T>(p: Pool<T>, j: nat)
    requires Valid(p) && |p.items| > 0
    ensures Takes(p, j).1.index == (p.index + j) % |p.items|
    ensures forall k :: 0 <= k < j ==> Takes(p, j).0[k] == p.items[(p.index + k) % |p.items|]
    decreases j
  {
    var n := |p.items|;
    if j > 0 {
      var next := Take(p).1;
      var t, rest := Takes(p, j), Takes(next, j - 1);
      TakesCycle(next, j - 1);
      assert next.index == (p.index + 1) % n;
      assert t.0 == [p.items[p.index]] + rest.0 && t.1 == rest.1;
      ModShift(p.index + 1, j - 1, n);
      ModSmall(p.index, n);
      forall k | 0 < k < j
        ensures t.0[k] == p.items[(p.index + k) % n]
      {
        assert t.0[k] == rest.0[k - 1];
        ModShift(p.index + 1, k - 1, n);
      }
    }
  }

  /** Reducing before adding does not change the remainder. */
  lemma {:induction false} ModShift(a: nat, m: nat, n: nat)
    requires n > 0
    ensures (a % n + m) % n == (a + m) % n
    decreases a
  {
    if a >= n {
      ModShift(a - n, m, n);
      ModDrop(a, n);
      ModDrop(a + m, n);
      assert a - n + m == a + m - n;
    } else {
      ModSmall(a, n);
    }
  }

  /** Taking `n` away from at least `n` leaves the remainder mod `n`. */
  lemma ModDrop(x: nat, n: nat)
    requires 0 < n <= x
    ensures x % n == (x - n) % n
  {
    var q, r := (x - n) / n, (x - n) % n;
    var q', r' := x / n, x % n;
    assert x == (q + 1) * n + r;
    assert x == q' * n + r';
    var d := q + 1 - q';
    assert d * n == r' - r;
    if d >= 1 {
      MulAtLeast(d, n);
    } else if d <= -1 {
      MulAtLeast(-d, n);
    }
  }

  /** A remainder below the modulus is itself. */
  lemma ModSmall(x: nat, n: nat)
    requires x < n
    ensures x % n == x
  {
    var q := x / n;
    assert x == q * n + x % n;
    if q >= 1 {
      MulAtLeast(q, n);
    } else if q <= -1 {
      MulAtLeast(-q, n);
    }
  }

  lemma MulAtLeast(d: int, n: int)
    requires d >= 1 && n > 0
    ensures d * n >= n
  {
  }

  /** From a fresh pool, the `j`-th take (counting from 0) returns
      `items[j mod n]`, and the cursor is always in range. */
  lemma FreshPoolCycles<T>(items: seq<T>, j: nat)
    requires |items| > 0
    ensures forall k :: 0 <= k < j ==> Takes(Pool(items, 0), j).0[k] == items[k % |items|]
    ensures Takes(Pool(items, 0), j).1.index == j % |items| < |items|
  {
    TakesCycle(Pool(items, 0), j);
  }
}

=== FILE: steps.dfy ===
/** The steps a workflow reports progress on (Workflow+Steps.swift).

    A step is a class instance the UI observes; the model treats the list of
    steps as a value and `update(step:state:)` as a function producing the
    new list. Step identity is the `id` string alone. */
module Steps {
  import opened Outcomes

  /** A step's progress. The source's enum declares `waiting` while the run
      moves a step to `.running`; both name the one in-progress state,
      `Running` here. `Errored` is the enum's `error` case. */
  datatype StepState = Idle | Running | Done | Errored

  datatype Step = Step(id: string, name: string, state: StepState)

  /** `Step.init`: the state defaults to idle. */
  function NewStep(id: string, name: string): (s: Step)
    ensures s.id == id && s.name == name && s.state == Idle
  {
    Step(id, name, Idle)
  }

  /** Step equality (`==`) compares ids only, and so does hashing: two steps
      with one id are the same step whatever their names and states. */
  predicate SameStep(a: Step, b: Step) {
    a.id == b.id
  }

  /** Index `i` holds the first step with this id. */
  predicate FirstWithId(steps: seq<Step>, id: string, i: int) {
    0 <= i < |steps| && steps[i].id == id && forall j :: 0 <= j < i ==> steps[j].id != id
  }

  predicate HasId(steps: seq<Step>, id: string) {
    exists i :: 0 <= i < |steps| && steps[i].id == id
  }

  /** The position of the first step with this id, if any
      (`steps.first(where:)`). */
  function Find(steps: seq<Step>, id: string): (r: Option<nat>)
    ensures r.Some? ==> FirstWithId(steps, id, r.value)
    ensures r.None? <==> !HasId(steps, id)
  {
    if steps == [] then None
    else if steps[0].id == id then Some(0)
    else
      match Find(steps[1..], id)
      case None =>
        assert forall i :: 1 <= i < |steps| ==> steps[i] == steps[1..][i - 1];
        None
      case Some(i) =>
        assert steps[1..][i] == steps[i + 1];
        Some(i + 1)
  }

  /** `update(step:state:)`: the first step with the id moves to `st`; when
      no step has the id the call does nothing. */
  function Update(steps: seq<Step>, id: string, st: StepState): (r: seq<Step>)
    ensures |r| == |steps|
    ensures forall i :: 0 <= i < |steps| ==>
      r[i] == (if FirstWithId(steps, id, i) then steps[i].(state := st) else steps[i])
  {
    if steps == [] then []
    else if steps[0].id == id then [steps[0].(state := st)] + steps[1..]
    else
      var rest := Update(steps[1..], id, st);
      assert forall i :: 1 <= i < |steps| ==>
        (FirstWithId(steps, id, i) <==> FirstWithId(steps[1..], id, i - 1)) by {
        forall i | 1 <= i < |steps|
          ensures FirstWithId(steps, id, i) <==> FirstWithId(steps[1..], id, i - 1)
        {
          assert forall j :: 0 <= j < i - 1 ==> steps[1..][j] == steps[j + 1];
        }
      }
      [steps[0]] + rest
  }

  /** The state of the step with this id, as the UI sees it. */
  function StateOf(steps: seq<Step>, id: string): Option<StepState> {
    match Find(steps, id)
    case None => None
    case Some(i) => Some(steps[i].state)
  }

  /** Updating a known step makes the UI see the new state; updating an
      unknown one changes nothing. */
  lemma UpdateThenRead(steps: seq<Step>, id: string, st: StepState)
    ensures HasId(steps, id) ==> StateOf(Update(steps, id, st), id) == Some(st)
    ensures !HasId(steps, id) ==> Update(steps, id, st) == steps
  {
    var r := Update(steps, id, st);
    if HasId(steps, id) {
      var i := Find(steps, id).value;
      assert forall j :: 0 <= j < |r| ==> r[j].id == steps[j].id;
      assert FirstWithId(r, id, i);
      FirstUnique(r, id, i, Find(r, id).value);
    } else {
      assert forall i :: 0 <= i < |steps| ==> !FirstWithId(steps, id, i);
    }
  }

  /** There is one first step with a given id. */
  lemma FirstUnique(steps: seq<Step>, id: string, i: int, j: int)
    requires FirstWithId(steps, id, i) && FirstWithId(steps, id, j)
    ensures i == j
  {
  }

  /** Updates leave ids, names and order alone, so the UI's list keeps its
      rows. */
  lemma UpdateKeepsIdentity(steps: seq<Step>, id: string, st: StepState)
    ensures forall i :: 0 <= i < |steps| ==>
      SameStep(Update(steps, id, st)[i], steps[i]) && Update(steps, id, st)[i].name == steps[i].name
  {
  }

  /** A later update of the same step overrides an earlier one: the run's
      `.running` then `.done` leaves exactly what `.done` alone would. */
  lemma UpdateOverwrites(steps: seq<Step>, id: string, a: StepState, b: StepState)
    ensures Update(Update(steps, id, a), id, b) == Update(steps, id, b)
  {
    var once := Update(steps, id, a);
    forall i | 0 <= i < |steps|
      ensures FirstWithId(once, id, i) <==> FirstWithId(steps, id, i)
    {
      UpdateKeepsFirst(steps, id, a, id, i);
    }
  }

  /** An update does not change which step is the first with a given id. */
  lemma UpdateKeepsFirst(steps: seq<Step>, x: string, a: StepState, id: string, i: int)
    ensures FirstWithId(Update(steps, x, a), id, i) <==> FirstWithId(steps, id, i)
  {
    var r := Update(steps, x, a);
    assert forall j :: 0 <= j < |steps| ==> r[j].id == steps[j].id;
  }

  /** Steps are looked up by id, the one field equality and hashing use: an
      update changes a state only, so every lookup afterwards finds the step
      it found before. */
  lemma UpdateKeepsLookup(steps: seq<Step>, x: string, a: StepState, id: string)
    ensures Find(Update(steps, x, a), id) == Find(steps, id)
  {
    var r := Update(steps, x, a);
    assert forall j :: 0 <= j < |steps| ==> r[j].id == steps[j].id;
    match Find(steps, id)
    case None =>
    case Some(i) =>
      UpdateKeepsFirst(steps, x, a, id, i);
      FirstUnique(r, id, i, Find(r, id).value);
  }

  /** Updates of different steps do not interfere. */
  lemma UpdatesCommute(steps: seq<Step>, x: string, a: StepState, y: string, b: StepState)
    requires x != y
    ensures Update(Update(steps, x, a), y, b) == Update(Update(steps, y, b), x, a)
  {
    var xs, ys := Update(steps, x, a), Update(steps, y, b);
    var xy, yx := Update(xs, y, b), Update(ys, x, a);
    forall i | 0 <= i < |steps|
      ensures xy[i] == yx[i]
    {
      UpdateKeepsFirst(steps, x, a, y, i);
      UpdateKeepsFirst(steps, y, b, x, i);
      var fx, fy := FirstWithId(steps, x, i), FirstWithId(steps, y, i);
      assert !(fx && fy);
      assert xy[i] == (if fy then xs[i].(state := b) else xs[i]);
      assert yx[i] == (if fx then ys[i].(state := a) else ys[i]);
    }
  }

  /** Every id names one step. */
  predicate UniqueIds(steps: seq<Step>) {
    forall i, j :: 0 <= i < j < |steps| ==> steps[i].id != steps[j].id
  }

  /** With unique ids, `update` moves exactly the step whose id it names:
      the "first" in `first(where:)` does not matter. */
  lemma UpdateUnique(steps: seq<Step>, id: string, st: StepState)
    requires UniqueIds(steps)
    ensures forall i :: 0 <= i < |steps| ==>
      Update(steps, id, st)[i] == (if steps[i].id == id then steps[i].(state := st) else steps[i])
  {
    forall i | 0 <= i < |steps| && steps[i].id == id
      ensures FirstWithId(steps, id, i)
    {
      forall j | 0 <= j < i
        ensures steps[j].id != id
      {
        assert steps[j].id != steps[i].id;
      }
    }
  }
}

=== FILE: synthesis.dfy ===
/** Key synthesis: how holding, releasing, pressing and typing become the
    ordered low-level key events delivered to the virtual machine's view
    (the `NSView` extension and `press`/`type` of VZAutomator+Keyboard.swift).

    An event is modelled as its direction, the modifier flags attached to the
    event itself and the raw key code; timestamps, window numbers and the
    rest of `NSEvent` are left out. */
module Synthesis {
  import opened Keyboard

  datatype Direction = Down | Up

  datatype KeyEvent = KeyEvent(direction: Direction, flags: Modifiers, code: KeyCode)

  /** The left-hand modifier key (or Function key) that stands for a flag. */
  function ModifierKeyCode(m: Modifier): KeyCode {
    match m
    case Shift => LeftShiftCode
    case Control => LeftControlCode
    case Alt => LeftAltCode
    case Command => LeftCommandCode
    case Fn => FunctionCode
  }

  /** Position of a flag in the canonical order shift, control, alt,
      command, fn. */
  function Rank(m: Modifier): nat {
    match m
    case Shift => 0
    case Control => 1
    case Alt => 2
    case Command => 3
    case Fn => 4
  }

  /** The flags of `ms`, each once, in canonical order. */
  function Ordered(ms: Modifiers): (r: seq<Modifier>)
    ensures forall m :: m in r <==> m in ms
    ensures Increasing(r)
    ensures |r| == |ms|
  {
    var r := Select(Canonical, ms);
    assert forall m :: m in Canonical by {
      forall m { RankListed(m); }
    }
    assert Increasing(Canonical);
    SelectIncreasing(Canonical, ms);
    DistinctLength(r, ms);
    r
  }

  /** Ranks strictly increase along `r`. */
  predicate Increasing(r: seq<Modifier>) {
    forall i, j :: 0 <= i < j < |r| ==> Rank(r[i]) < Rank(r[j])
  }

  /** Every flag is listed at its rank. */
  lemma RankListed(m: Modifier)
    ensures Rank(m) < |Canonical| && Canonical[Rank(m)] == m && m in Canonical
  {
  }

  /** The flags of `order` that are in `ms`, in the order given. */
  function Select(order: seq<Modifier>, ms: Modifiers): (r: seq<Modifier>)
    ensures forall m :: m in r <==> m in order && m in ms
  {
    if order == [] then []
    else (if order[0] in ms then [order[0]] else []) + Select(order[1..], ms)
  }

  /** Selecting from an increasing order keeps it increasing. */
  lemma {:induction false} SelectIncreasing(order: seq<Modifier>, ms: Modifiers)
    requires Increasing(order)
    ensures Increasing(Select(order, ms))
  {
    if order != [] {
      var tail := order[1..];
      var rest := Select(tail, ms);
      assert Increasing(tail) by {
        forall i, j | 0 <= i < j < |tail|
          ensures Rank(tail[i]) < Rank(tail[j])
        {
          assert tail[i] == order[i + 1] && tail[j] == order[j + 1];
        }
      }
      SelectIncreasing(tail, ms);
      if order[0] in ms {
        forall y | y in rest
          ensures Rank(order[0]) < Rank(y)
        {
          var j :| 0 <= j < |tail| && tail[j] == y;
          assert y == order[j + 1];
        }
        IncreasingCons(order[0], rest);
      }
    }
  }

  /** A flag ranked below every flag of an increasing run heads it. */
  lemma IncreasingCons(x: Modifier, rest: seq<Modifier>)
    requires Increasing(rest)
    requires forall y :: y in rest ==> Rank(x) < Rank(y)
    ensures Increasing([x] + rest)
  {
    var r := [x] + rest;
    forall i, j | 0 <= i < j < |r|
      ensures Rank(r[i]) < Rank(r[j])
    {
      assert r[j] == rest[j - 1];
      if i > 0 {
        assert r[i] == rest[i - 1];
      } else {
        assert rest[j - 1] in rest;
      }
    }
  }

  /** A sequence whose ranks strictly increase lists the elements of a set
      once each, so its length is the set's size. */
  lemma {:induction false} DistinctLength(r: seq<Modifier>, ms: Modifiers)
    requires forall m :: m in r <==> m in ms
    requires Increasing(r)
    ensures |r| == |ms|
  {
    if r != [] {
      var rest := ms - {r[0]};
      forall m
        ensures m in r[1..] <==> m in rest
      {
        if m in r[1..] {
          var j :| 1 <= j < |r| && r[j] == m;
          assert Rank(r[0]) < Rank(r[j]);
        }
      }
      DistinctLength(r[1..], rest);
    }
  }

  /** The codes of the modifier keys that stand for the flags of `ms`. */
  function ModifierCodes(ms: Modifiers): set<KeyCode> {
    set m | m in ms :: ModifierKeyCode(m)
  }

  /** One flagless event per modifier, in the given order. */
  function Emit(dir: Direction, order: seq<Modifier>): (evs: seq<KeyEvent>)
    ensures |evs| == |order|
    ensures forall i :: 0 <= i < |evs| ==> evs[i] == KeyEvent(dir, {}, ModifierKeyCode(order[i]))
  {
    if order == [] then [] else [KeyEvent(dir, {}, ModifierKeyCode(order[0]))] + Emit(dir, order[1..])
  }

  /** One event per modifier flag of `ms`, in canonical order, each without
      flags of its own (`events(type:for: Modifiers)`). */
  function ModifierEvents(dir: Direction, ms: Modifiers): seq<KeyEvent> {
    Emit(dir, Ordered(ms))
  }

  /** The events for one direction of a key (`events(type:for: Key)`):
      modifier downs then the main down, or the main up then modifier ups. */
  function KeyEvents(dir: Direction, k: Key): (evs: seq<KeyEvent>)
    ensures |evs| == |k.modifiers| + 1
    ensures forall i :: 0 <= i < |evs| ==> evs[i].direction == dir && evs[i].flags == {}
    ensures dir == Down ==> evs[|evs| - 1] == KeyEvent(Down, {}, k.code)
    ensures dir == Up ==> evs[0] == KeyEvent(Up, {}, k.code)
  {
    if dir == Down then ModifierEvents(dir, k.modifiers) + [KeyEvent(dir, {}, k.code)]
    else [KeyEvent(dir, {}, k.code)] + ModifierEvents(dir, k.modifiers)
  }

  /** `hold(key:)`: a down event for every modifier, in canonical order, and
      then the main key's down event, all without flags. */
  function Hold(k: Key): (evs: seq<KeyEvent>)
    ensures |evs| == |k.modifiers| + 1
    ensures evs[|k.modifiers|] == KeyEvent(Down, {}, k.code)
    ensures forall i :: 0 <= i < |evs| ==> evs[i].direction == Down && evs[i].flags == {}
  {
    KeyEvents(Down, k)
  }

  /** The modifier downs of a hold come in canonical order. */
  lemma HoldOrder(k: Key)
    ensures forall i :: 0 <= i < |k.modifiers| ==> Hold(k)[i].code == ModifierKeyCode(Ordered(k.modifiers)[i])
  {
    var order := Ordered(k.modifiers);
    var downs := Emit(Down, order);
    assert Hold(k) == downs + [KeyEvent(Down, {}, k.code)];
    forall i | 0 <= i < |k.modifiers|
      ensures Hold(k)[i].code == ModifierKeyCode(order[i])
    {
      assert Hold(k)[i] == downs[i];
    }
  }

  /** `release(key:)`: the main key's up event first, and then an up event
      for every modifier in the same (not reversed) canonical order. */
  function Release(k: Key): (evs: seq<KeyEvent>)
    ensures |evs| == |k.modifiers| + 1
    ensures evs[0] == KeyEvent(Up, {}, k.code)
    ensures forall i :: 0 <= i < |evs| ==> evs[i].direction == Up && evs[i].flags == {}
  {
    KeyEvents(Up, k)
  }

  /** The modifier ups of a release follow the main key's up in the same
      canonical order as the downs. */
  lemma ReleaseOrder(k: Key)
    ensures forall i :: 0 <= i < |k.modifiers| ==> Release(k)[i + 1].code == ModifierKeyCode(Ordered(k.modifiers)[i])
  {
    var order := Ordered(k.modifiers);
    var ups := Emit(Up, order);
    assert Release(k) == [KeyEvent(Up, {}, k.code)] + ups;
    forall i | 0 <= i < |k.modifiers|
      ensures Release(k)[i + 1].code == ModifierKeyCode(order[i])
    {
      assert Release(k)[i + 1] == ups[i];
    }
  }

  /** `press(key:times:)`: `times` hold/release pairs back to back. */
  function Press(k: Key, times: nat): seq<KeyEvent> {
    Repeat(Hold(k) + Release(k), times)
  }

  /** `s`, `n` times over. */
  function Repeat<T>(s: seq<T>, n: nat): seq<T> {
    if n == 0 then [] else s + Repeat(s, n - 1)
  }

  lemma {:induction false} RepeatLength<T>(s: seq<T>, n: nat)
    ensures |Repeat(s, n)| == n * |s|
  {
    if n > 0 {
      RepeatLength(s, n - 1);
      assert n * |s| == (n - 1) * |s| + |s|;
    }
  }

  lemma {:induction false} RepeatSplit<T>(s: seq<T>, a: nat, b: nat)
    ensures Repeat(s, a + b) == Repeat(s, a) + Repeat(s, b)
  {
    if a == 0 {
      assert Repeat(s, a) + Repeat(s, b) == Repeat(s, b);
    } else {
      calc {
        Repeat(s, a + b);
        s + Repeat(s, (a - 1) + b);
        { RepeatSplit(s, a - 1, b); }
        s + (Repeat(s, a - 1) + Repeat(s, b));
        (s + Repeat(s, a - 1)) + Repeat(s, b);
      }
    }
  }

  /** Each press sends a down and an up event for the key and for each of
      its modifiers. */
  lemma PressLength(k: Key, times: nat)
    ensures |Press(k, times)| == times * (2 * |k.modifiers| + 2)
  {
    var once := Hold(k) + Release(k);
    var n := 2 * |k.modifiers| + 2;
    assert |once| == n;
    RepeatLength(once, times);
    assert |Press(k, times)| == times * |once|;
  }

  /** `press(keys:)`: each key pressed once, in list order. */
  function PressKeys(keys: seq<Key>): seq<KeyEvent> {
    if keys == [] then [] else Press(keys[0], 1) + PressKeys(keys[1..])
  }

  /** `type(_:)`: press the keys the character table gives for the string. */
  function Type(s: string): seq<KeyEvent> {
    PressKeys(FromString(s))
  }

  // A keyboard's state is the set of codes currently held down.

  /** The codes held after delivering `evs`, starting from `held`. */
  function Deliver(held: set<KeyCode>, evs: seq<KeyEvent>): set<KeyCode>
    decreases evs
  {
    if evs == [] then held
    else
      var e := evs[0];
      Deliver(if e.direction == Down then held + {e.code} else held - {e.code}, evs[1..])
  }

  lemma {:induction false} DeliverAppend(held: set<KeyCode>, a: seq<KeyEvent>, b: seq<KeyEvent>)
    ensures Deliver(held, a + b) == Deliver(Deliver(held, a), b)
    decreases a
  {
    if a == [] {
      assert a + b == b;
    } else {
      assert (a + b)[0] == a[0];
      assert (a + b)[1..] == a[1..] + b;
      var e := a[0];
      DeliverAppend(if e.direction == Down then held + {e.code} else held - {e.code}, a[1..], b);
    }
  }

  /** The codes a key involves: its own and its modifiers' keys. */
  function KeyCodes(k: Key): set<KeyCode> {
    {k.code} + ModifierCodes(k.modifiers)
  }

  /** Delivering the events of a modifier listing presses (or lifts) exactly
      the listed modifiers' keys. */
  lemma {:induction false} DeliverEmit(held: set<KeyCode>, dir: Direction, order: seq<Modifier>)
    ensures dir == Down ==> Deliver(held, Emit(dir, order)) == held + (set m | m in order :: ModifierKeyCode(m))
    ensures dir == Up ==> Deliver(held, Emit(dir, order)) == held - (set m | m in order :: ModifierKeyCode(m))
    decreases order
  {
    if order != [] {
      var e := KeyEvent(dir, {}, ModifierKeyCode(order[0]));
      var next := if dir == Down then held + {e.code} else held - {e.code};
      assert Emit(dir, order)[1..] == Emit(dir, order[1..]);
      DeliverEmit(next, dir, order[1..]);
      assert (set m | m in order :: ModifierKeyCode(m))
        == {e.code} + (set m | m in order[1..] :: ModifierKeyCode(m));
    }
  }

  /** Delivering a key's modifier events presses (or lifts) exactly its
      modifier keys. */
  lemma DeliverModifiers(held: set<KeyCode>, dir: Direction, ms: Modifiers)
    ensures dir == Down ==> Deliver(held, ModifierEvents(dir, ms)) == held + ModifierCodes(ms)
    ensures dir == Up ==> Deliver(held, ModifierEvents(dir, ms)) == held - ModifierCodes(ms)
  {
    DeliverEmit(held, dir, Ordered(ms));
    SameCodes(Ordered(ms), ms);
  }

  /** A listing of exactly the flags of `ms` stands for their keys. */
  lemma SameCodes(r: seq<Modifier>, ms: Modifiers)
    requires forall m :: m in r <==> m in ms
    ensures (set m | m in r :: ModifierKeyCode(m)) == ModifierCodes(ms)
  {
  }

  /** Holding a key leaves its modifier keys and itself down; releasing it
      lifts them all again. */
  lemma HoldRelease(held: set<KeyCode>, k: Key)
    ensures Deliver(held, Hold(k)) == held + KeyCodes(k)
    ensures Deliver(held, Release(k)) == held - KeyCodes(k)
  {
    HoldPresses(held, k);
    ReleaseLifts(held, k);
  }

  lemma HoldPresses(held: set<KeyCode>, k: Key)
    ensures Deliver(held, Hold(k)) == held + KeyCodes(k)
  {
    var main := KeyEvent(Down, {}, k.code);
    DeliverAppend(held, ModifierEvents(Down, k.modifiers), [main]);
    DeliverModifiers(held, Down, k.modifiers);
    assert Hold(k) == ModifierEvents(Down, k.modifiers) + [main];
    var after := held + ModifierCodes(k.modifiers);
    assert Deliver(after, [main]) == Deliver(after + {k.code}, []);
  }

  lemma ReleaseLifts(held: set<KeyCode>, k: Key)
    ensures Deliver(held, Release(k)) == held - KeyCodes(k)
  {
    var up := KeyEvent(Up, {}, k.code);
    DeliverAppend(held, [up], ModifierEvents(Up, k.modifiers));
    DeliverModifiers(held - {k.code}, Up, k.modifiers);
    assert Release(k) == [up] + ModifierEvents(Up, k.modifiers);
    assert Deliver(held, [up]) == Deliver(held - {k.code}, []);
  }

  /** Pressing a key at least once ends with every key it involves lifted;
      a keyboard on which none of them was down is left as it was. */
  lemma {:induction false} PressLifts(held: set<KeyCode>, k: Key, times: nat)
    ensures times > 0 ==> Deliver(held, Press(k, times)) == held - KeyCodes(k)
    ensures held !! KeyCodes(k) ==> Deliver(held, Press(k, times)) == held
  {
    if times > 0 {
      assert Press(k, times) == (Hold(k) + Release(k)) + Press(k, times - 1);
      HoldRelease(held, k);
      HoldRelease(held + KeyCodes(k), k);
      DeliverAppend(held, Hold(k), Release(k));
      assert Deliver(held, Hold(k) + Release(k)) == held - KeyCodes(k);
      DeliverAppend(held, Hold(k) + Release(k), Press(k, times - 1));
      PressLifts(held - KeyCodes(k), k, times - 1);
    }
  }

  /** `times` presses are `a` presses followed by `b` presses. */
  lemma PressSplit(k: Key, a: nat, b: nat)
    ensures Press(k, a + b) == Press(k, a) + Press(k, b)
  {
    RepeatSplit(Hold(k) + Release(k), a, b);
  }

  lemma {:induction false} PressKeysAppend(a: seq<Key>, b: seq<Key>)
    ensures PressKeys(a + b) == PressKeys(a) + PressKeys(b)
  {
    if a == [] {
      assert a + b == b;
    } else {
      assert (a + b)[1..] == a[1..] + b;
      PressKeysAppend(a[1..], b);
    }
  }

  /** Typing `s + t` types `s` and then `t`. */
  lemma TypeAppend(s: string, t: string)
    ensures Type(s + t) == Type(s) + Type(t)
  {
    FromStringAppend(s, t);
    PressKeysAppend(FromString(s), FromString(t));
  }

  /** Pressing a list of keys never leaves a key down that was not already
      down; in particular typing on a released keyboard leaves it released. */
  lemma {:induction false} PressKeysLifts(held: set<KeyCode>, keys: seq<Key>)
    ensures Deliver(held, PressKeys(keys)) <= held
  {
    if keys != [] {
      PressLifts(held, keys[0], 1);
      DeliverAppend(held, Press(keys[0], 1), PressKeys(keys[1..]));
      PressKeysLifts(held - KeyCodes(keys[0]), keys[1..]);
    }
  }

  /** Pressing a key with one modifier twice: modifier down, key down, key
      up, modifier up, and the same again. */
  lemma PressTwiceSingle(k: Key, m: Modifier)
    requires k.modifiers == {m}
    ensures Press(k, 2) ==
      [KeyEvent(Down, {}, ModifierKeyCode(m)), KeyEvent(Down, {}, k.code),
       KeyEvent(Up, {}, k.code), KeyEvent(Up, {}, ModifierKeyCode(m)),
       KeyEvent(Down, {}, ModifierKeyCode(m)), KeyEvent(Down, {}, k.code),
       KeyEvent(Up, {}, k.code), KeyEvent(Up, {}, ModifierKeyCode(m))]
  {
    SingleModifier(k, m);
    var once := Hold(k) + Release(k);
    assert Repeat(once, 1) == once + Repeat(once, 0);
    assert Press(k, 2) == once + Repeat(once, 1);
  }

  /** Pressing shift+tab twice, as the Apple ID step does. */
  lemma ShiftTabTwice(k: Key)
    requires k == TabKey.WithShift()
    ensures Press(k, 2) ==
      [KeyEvent(Down, {}, LeftShiftCode), KeyEvent(Down, {}, TabCode),
       KeyEvent(Up, {}, TabCode), KeyEvent(Up, {}, LeftShiftCode),
       KeyEvent(Down, {}, LeftShiftCode), KeyEvent(Down, {}, TabCode),
       KeyEvent(Up, {}, TabCode), KeyEvent(Up, {}, LeftShiftCode)]
  {
    assert k.modifiers == {Shift} && k.code == TabCode;
    PressTwiceSingle(k, Shift);
  }

  /** A key with one modifier: modifier down, key down; key up, modifier
      up. */
  lemma SingleModifier(k: Key, m: Modifier)
    requires k.modifiers == {m}
    ensures Hold(k) == [KeyEvent(Down, {}, ModifierKeyCode(m)), KeyEvent(Down, {}, k.code)]
    ensures Release(k) == [KeyEvent(Up, {}, k.code), KeyEvent(Up, {}, ModifierKeyCode(m))]
  {
    var order := Ordered(k.modifiers);
    assert order == [m] by {
      assert |order| == 1 && m in order;
    }
    assert Emit(Down, order) == [KeyEvent(Down, {}, ModifierKeyCode(m))];
    assert Emit(Up, order) == [KeyEvent(Up, {}, ModifierKeyCode(m))];
  }
}

=== FILE: workflow.dfy ===
/** The setup-assistant workflow (Workflow.swift, Workflow+Run.swift): eleven
    named steps, each a short script of waits and key presses, with a
    screenshot after each of the first ten.

    The environment is an oracle. Each wait in a script is answered by one
    `Result<bool>`, the `Summary` of how the polling wait went: `Ok(true)`
    when it returned, `Err(e)` when it threw, `Ok(false)` when it never
    returns. Each `has(text:)` query is answered by one `Result<bool>` too.
    Answers are consumed in order across the whole run. Key presses and
    typing cannot fail. */
module Workflows {
  import opened Outcomes
  import opened Steps
  import opened Keyboard
  import Synthesis
  import Display

  /** `VZWorkflow`: the steps and the screenshots taken so far. */
  datatype Workflow = Workflow(steps: seq<Step>, screenshots: seq<Display.Image>)

  /** `VZWorkflow.init(steps:)`. */
  function NewWorkflow(steps: seq<Step>): (w: Workflow)
    ensures w.steps == steps && w.screenshots == []
  {
    Workflow(steps, [])
  }

  // Scripts.

  /** What a script waits for. */
  datatype Target =
    | MachineRunning                             // `wait(forState: .running)`
    | DisplayUp                                  // `waitForDisplay()`
    | TextShown(cond: Display.TextCondition)     // `wait(forText:)`
    | ImageAt(at: Display.Point)                 // `wait(forImage:at:)`

  datatype Action =
    | WaitFor(target: Target)
    | PressKey(key: Key, times: nat)             // `press(key:times:)`
    | TypeText(text: string)                     // `type(_:)`
    | ReturnIfText(text: string)                 // `if try await has(text:) { return }`

  /** How a script, a step or the whole run ended. `Stalled` means a wait
      never returned. */
  datatype Outcome = Completed | Failed(error: Error) | Stalled

  /** A script's outcome, the key actions it performed (in order) and how
      many answers it consumed. */
  datatype ScriptRun = ScriptRun(outcome: Outcome, sent: seq<Action>, used: nat)

  /** Presses and typing: the actions that send key events. */
  predicate IsKey(a: Action) {
    a.PressKey? || a.TypeText?
  }

  /** The key actions of a script, in order. */
  function KeyActions(script: seq<Action>): (keys: seq<Action>)
    ensures forall i :: 0 <= i < |keys| ==> IsKey(keys[i])
  {
    if script == [] then []
    else (if IsKey(script[0]) then [script[0]] else []) + KeyActions(script[1..])
  }

  /** A script that always runs to its end once its waits return. */
  predicate NoEarlyReturn(script: seq<Action>) {
    forall i :: 0 <= i < |script| ==> !script[i].ReturnIfText?
  }

  /** The answers under which a script runs straight through: every wait
      returns and every `has(text:)` query answers false. */
  function Expected(script: seq<Action>): (answers: seq<Result<bool>>)
    ensures forall i :: 0 <= i < |answers| ==> answers[i].Ok?
  {
    if script == [] then []
    else if script[0].WaitFor? then [Ok(true)] + Expected(script[1..])
    else if script[0].ReturnIfText? then [Ok(false)] + Expected(script[1..])
    else Expected(script[1..])
  }

  /** Run a script against the environment's answers. Running out of
      answers means the pending wait or query never finished. A wait that
      returns, and a query that answers false, let the script go on. */
  function Exec(script: seq<Action>, answers: seq<Result<bool>>): (r: ScriptRun)
    ensures r.used <= |answers|
    ensures r.outcome.Failed? ==> r.used > 0 && answers[r.used - 1] == Err(r.outcome.error)
  {
    if script == [] then ScriptRun(Completed, [], 0)
    else
      var a := script[0];
      if IsKey(a) then
        var rest := Exec(script[1..], answers);
        ScriptRun(rest.outcome, [a] + rest.sent, rest.used)
      else if answers == [] then ScriptRun(Stalled, [], 0)
      else if answers[0].Err? then ScriptRun(Failed(answers[0].error), [], 1)
      else if answers[0].value == a.WaitFor? then
        var rest := Exec(script[1..], answers[1..]);
        ScriptRun(rest.outcome, rest.sent, rest.used + 1)
      else if a.WaitFor? then ScriptRun(Stalled, [], 1)
      else ScriptRun(Completed, [], 1)
  }

  /** A script performs its key actions in order and stops partway only
      when it stops early: they are a prefix of the listed ones, and all of
      them when a script that cannot return early completes. */
  lemma {:induction false} ExecKeys(script: seq<Action>, answers: seq<Result<bool>>)
    ensures Exec(script, answers).sent <= KeyActions(script)
    ensures Exec(script, answers).outcome == Completed && NoEarlyReturn(script) ==>
      Exec(script, answers).sent == KeyActions(script)
  {
    if script != [] {
      var a := script[0];
      var tail := script[1..];
      assert KeyActions(script) == (if IsKey(a) then [a] else []) + KeyActions(tail);
      assert NoEarlyReturn(script) ==> NoEarlyReturn(tail) by {
        if NoEarlyReturn(script) {
          forall i | 0 <= i < |tail| ensures !tail[i].ReturnIfText? {
            assert tail[i] == script[i + 1];
          }
        }
      }
      if IsKey(a) {
        ExecKeys(tail, answers);
      } else if answers != [] && answers[0].Ok? && answers[0].value == a.WaitFor? {
        ExecKeys(tail, answers[1..]);
      }
    }
  }

  /** Under its expected answers a script completes, performs every key
      action it lists and consumes exactly those answers, whatever follows them. */
  lemma {:induction false} ExecExpected(script: seq<Action>, more: seq<Result<bool>>)
    ensures Exec(script, Expected(script) + more)
      == ScriptRun(Completed, KeyActions(script), |Expected(script)|)
  {
    if script != [] {
      var a, rest := script[0], script[1..];
      ExecExpected(rest, more);
      ExpectedStep(a, rest, more);
      assert script == [a] + rest;
    }
  }

  /** One more action in front of a script that runs straight through. */
  lemma ExpectedStep(a: Action, rest: seq<Action>, more: seq<Result<bool>>)
    requires Exec(rest, Expected(rest) + more) == ScriptRun(Completed, KeyActions(rest), |Expected(rest)|)
    ensures Exec([a] + rest, Expected([a] + rest) + more)
      == ScriptRun(Completed, KeyActions([a] + rest), |Expected([a] + rest)|)
  {
    if IsKey(a) {
      ExecKeyStep(a, rest, Expected(rest) + more);
    } else {
      ExecGateStep(a, rest, Expected(rest) + more);
      assert Expected([a] + rest) + more == [Ok(a.WaitFor?)] + (Expected(rest) + more);
    }
  }

  /** `text` is shown: the single-needle condition of `wait(forText: String)`. */
  function Shown(text: string): Target {
    TextShown(Display.AnyOf([text]))
  }

  /** The step ids in run order. */
  const RunIds: seq<string> := [
    "booting", "hello", "language", "country", "localization", "accessibility",
    "privacy", "migration", "appleid", "terms", "account"
  ]

  /** Where the language step looks for the globe image. */
  const GlobeAt: Display.Point := Display.Point(915.0, 682.0)

  /** The script of step `i`, in the order `run(automator:)` performs it.
      Every step starts by waiting for the screen it expects. */
  function Script(i: nat): (s: seq<Action>)
    requires i < |RunIds|
    ensures |s| > 0 && s[0].WaitFor?
  {
    match i
    case 0 => [WaitFor(MachineRunning), WaitFor(DisplayUp)]
    case 1 => [WaitFor(Shown("get started")), PressKey(ReturnKey, 1)]
    case 2 => [WaitFor(ImageAt(GlobeAt)), PressKey(TabKey, 1), PressKey(ReturnKey, 1),
               WaitFor(TextShown(Display.NoneOf(["language", "english", "english (uk)"])))]
    case 3 => [WaitFor(Shown("select your country or region")), PressKey(TabKey, 3), PressKey(Spacebar, 1)]
    case 4 => [WaitFor(Shown("written and spoken languages")), PressKey(TabKey, 3), PressKey(Spacebar, 1)]
    case 5 => [WaitFor(Shown("accessibility")), PressKey(TabKey, 6), PressKey(Spacebar, 1),
               WaitFor(TextShown(Display.NoneOf(["accessibility"])))]
    case 6 => [WaitFor(Shown("data & privacy")), PressKey(TabKey, 3), PressKey(Spacebar, 1)]
    case 7 => [WaitFor(Shown("migration assistant")), PressKey(TabKey, 3), PressKey(Spacebar, 1)]
    case 8 => [WaitFor(Shown("create new apple id")), PressKey(TabKey.WithShift(), 2), PressKey(Spacebar, 1),
               WaitFor(Shown("are you sure you want to skip")), PressKey(ReturnKey, 1)]
    case 9 => [WaitFor(Shown("terms and conditions")), PressKey(TabKey, 2), PressKey(Spacebar, 1),
               WaitFor(TextShown(Display.AllOf(["i have read", "disagree", "agree"]))),
               PressKey(TabKey, 1), PressKey(Spacebar, 1)]
    case _ => AccountScript
  }

  /** The account step: fill in the user name, skip the automatic account
      name, fill in the password, and fill in its confirmation unless the
      password was rejected. */
  const AccountPrefix: seq<Action> := [
    WaitFor(Shown("create a computer account")), TypeText("admin"), PressKey(TabKey, 1),
    PressKey(TabKey, 1), TypeText("secret123"), PressKey(TabKey, 1)
  ]
  const AccountScript: seq<Action> :=
    AccountPrefix
    + [ReturnIfText("keyboard requirements"), TypeText("secret123"), PressKey(TabKey, 1), PressKey(TabKey, 2)]

  /** The scripts of all steps, in run order. */
  const Scripts: seq<seq<Action>> := seq(|RunIds|, i requires 0 <= i < |RunIds| => Script(i))

  /** Only the account step can return early, and it is the last one. */
  lemma OnlyAccountReturnsEarly()
    ensures |Scripts| == |RunIds|
    ensures forall i :: 0 <= i < |RunIds| ==> (i < |RunIds| - 1 <==> NoEarlyReturn(Scripts[i]))
  {
    forall i | 0 <= i < |RunIds|
      ensures i < |RunIds| - 1 <==> NoEarlyReturn(Scripts[i])
    {
      assert Scripts[i] == Script(i);
      if i == |RunIds| - 1 {
        assert AccountScript[|AccountPrefix|].ReturnIfText?;
      }
    }
  }

  /** The country step, answered by a returning wait, tabs three times to
      the continue button and presses it with the space bar. */
  lemma CountryStep()
    ensures Exec(Script(3), [Ok(true)]) == ScriptRun(Completed, [PressKey(TabKey, 3), PressKey(Spacebar, 1)], 1)
  {
    var s := Script(3);
    assert Expected(s[2..]) == [];
    assert Expected(s[1..]) == [];
    assert Expected(s) == [Ok(true)];
    ExecExpected(s, []);
    assert [Ok(true)] + [] == [Ok(true)];
    assert KeyActions(s[2..]) == [PressKey(Spacebar, 1)];
  }

  /** Those two key actions are eight key events: four presses of a key
      without modifiers, a down and an up each. */
  lemma CountryEvents()
    ensures Events([PressKey(TabKey, 3), PressKey(Spacebar, 1)])
      == Synthesis.Press(TabKey, 3) + Synthesis.Press(Spacebar, 1)
    ensures |Events([PressKey(TabKey, 3), PressKey(Spacebar, 1)])| == 8
  {
    EventsPair(PressKey(TabKey, 3), PressKey(Spacebar, 1));
    Synthesis.PressLength(TabKey, 3);
    Synthesis.PressLength(Spacebar, 1);
  }

  lemma EventsPair(a: Action, b: Action)
    ensures Events([a, b]) == ActionKeys(a) + ActionKeys(b)
  {
    assert [a, b][1..] == [b] && [b][1..] == [];
    assert Events([b]) == ActionKeys(b) + [];
  }

  /** A key action is performed and the script goes on. */
  lemma ExecKeyStep(a: Action, tail: seq<Action>, answers: seq<Result<bool>>)
    requires IsKey(a)
    ensures Expected([a] + tail) == Expected(tail)
    ensures KeyActions([a] + tail) == [a] + KeyActions(tail)
    ensures Exec([a] + tail, answers)
      == ScriptRun(Exec(tail, answers).outcome, [a] + Exec(tail, answers).sent, Exec(tail, answers).used)
  {
    assert ([a] + tail)[0] == a && ([a] + tail)[1..] == tail;
  }

  /** A wait that returns, or a query that answers false, consumes its
      answer and the script goes on. */
  lemma ExecGateStep(a: Action, tail: seq<Action>, answers: seq<Result<bool>>)
    requires !IsKey(a)
    ensures Expected([a] + tail) == [Ok(a.WaitFor?)] + Expected(tail)
    ensures KeyActions([a] + tail) == KeyActions(tail)
    ensures Exec([a] + tail, [Ok(a.WaitFor?)] + answers)
      == ScriptRun(Exec(tail, answers).outcome, Exec(tail, answers).sent, Exec(tail, answers).used + 1)
  {
    assert ([a] + tail)[0] == a && ([a] + tail)[1..] == tail;
    assert ([Ok(a.WaitFor?)] + answers)[1..] == answers;
  }

  /** A query that answers true ends its script as completed, after the
      key actions before it and none of those after it. */
  lemma {:induction false} ExecReturnsEarly(
    p: seq<Action>, text: string, q: seq<Action>, more: seq<Result<bool>>)
    ensures Exec(p + [ReturnIfText(text)] + q, Expected(p) + [Ok(true)] + more)
      == ScriptRun(Completed, KeyActions(p), |Expected(p)| + 1)
  {
    if p == [] {
      assert p + [ReturnIfText(text)] + q == [ReturnIfText(text)] + q;
      assert Expected(p) + [Ok(true)] + more == [Ok(true)] + more;
      ExecQueryTrue(text, q, more);
    } else {
      var a, rest := p[0], p[1..];
      ExecReturnsEarly(rest, text, q, more);
      ReturnsEarlyStep(a, rest, text, q, more);
      assert p == [a] + rest;
    }
  }

  /** One more action in front of the part of a script before its query. */
  lemma ReturnsEarlyStep(a: Action, rest: seq<Action>, text: string, q: seq<Action>, more: seq<Result<bool>>)
    requires Exec(rest + [ReturnIfText(text)] + q, Expected(rest) + [Ok(true)] + more)
      == ScriptRun(Completed, KeyActions(rest), |Expected(rest)| + 1)
    ensures Exec(([a] + rest) + [ReturnIfText(text)] + q, Expected([a] + rest) + [Ok(true)] + more)
      == ScriptRun(Completed, KeyActions([a] + rest), |Expected([a] + rest)| + 1)
  {
    var tail := rest + [ReturnIfText(text)] + q;
    var after := Expected(rest) + [Ok(true)] + more;
    assert ([a] + rest) + [ReturnIfText(text)] + q == [a] + tail;
    if IsKey(a) {
      ExecKeyStep(a, rest, []);
      ExecKeyStep(a, tail, after);
    } else {
      ExecGateStep(a, rest, []);
      ExecGateStep(a, tail, after);
      assert Expected([a] + rest) + [Ok(true)] + more == [Ok(a.WaitFor?)] + after;
    }
  }

  /** A query that answers true completes its script at once. */
  lemma ExecQueryTrue(text: string, q: seq<Action>, more: seq<Result<bool>>)
    ensures Exec([ReturnIfText(text)] + q, [Ok(true)] + more) == ScriptRun(Completed, [], 1)
  {
    assert ([ReturnIfText(text)] + q)[0] == ReturnIfText(text);
  }

  /** Under the straight-through answers for `p`, a script `p + tail` runs
      all of `p` and then goes on as `tail` would on the answers after them. */
  lemma {:induction false} ExecAfterExpected(p: seq<Action>, tail: seq<Action>, more: seq<Result<bool>>)
    ensures Exec(p + tail, Expected(p) + more)
      == ScriptRun(Exec(tail, more).outcome, KeyActions(p) + Exec(tail, more).sent,
                   |Expected(p)| + Exec(tail, more).used)
  {
    if p == [] {
      assert p + tail == tail && Expected(p) + more == more;
    } else {
      var a, rest := p[0], p[1..];
      ExecAfterExpected(rest, tail, more);
      AfterExpectedStep(a, rest, tail, more, Exec(tail, more));
      assert p == [a] + rest;
    }
  }

  /** One more action in front of the part that runs straight through;
      `t` is how the rest of the script goes. */
  lemma AfterExpectedStep(a: Action, rest: seq<Action>, tail: seq<Action>, more: seq<Result<bool>>, t: ScriptRun)
    requires Exec(rest + tail, Expected(rest) + more)
      == ScriptRun(t.outcome, KeyActions(rest) + t.sent, |Expected(rest)| + t.used)
    ensures Exec(([a] + rest) + tail, Expected([a] + rest) + more)
      == ScriptRun(t.outcome, KeyActions([a] + rest) + t.sent, |Expected([a] + rest)| + t.used)
  {
    var x := Expected(rest) + more;
    assert ([a] + rest) + tail == [a] + (rest + tail);
    if IsKey(a) {
      ExecKeyStep(a, rest, []);
      ExecKeyStep(a, rest + tail, x);
    } else {
      ExecGateStep(a, rest, []);
      ExecGateStep(a, rest + tail, x);
      assert Expected([a] + rest) + more == [Ok(a.WaitFor?)] + x;
    }
  }

  /** A wait or query that throws fails its script with that error, after
      the key actions before it and none of those after it, having consumed
      exactly the answers up to and including the error. */
  lemma ExecGateThrows(p: seq<Action>, g: Action, q: seq<Action>, e: Error, more: seq<Result<bool>>)
    requires !IsKey(g)
    ensures Exec(p + [g] + q, Expected(p) + [Err(e)] + more)
      == ScriptRun(Failed(e), KeyActions(p), |Expected(p)| + 1)
  {
    ExecAfterExpected(p, [g] + q, [Err(e)] + more);
    assert p + [g] + q == p + ([g] + q);
    assert Expected(p) + [Err(e)] + more == Expected(p) + ([Err(e)] + more);
    assert ([g] + q)[0] == g;
    assert KeyActions(p) + [] == KeyActions(p);
  }

  /** A wait that never returns stalls its script there, after the key
      actions before it and none of those after it. */
  lemma ExecWaitNeverReturns(p: seq<Action>, t: Target, q: seq<Action>, more: seq<Result<bool>>)
    ensures Exec(p + [WaitFor(t)] + q, Expected(p) + [Ok(false)] + more)
      == ScriptRun(Stalled, KeyActions(p), |Expected(p)| + 1)
  {
    ExecAfterExpected(p, [WaitFor(t)] + q, [Ok(false)] + more);
    assert p + [WaitFor(t)] + q == p + ([WaitFor(t)] + q);
    assert Expected(p) + [Ok(false)] + more == Expected(p) + ([Ok(false)] + more);
    assert ([WaitFor(t)] + q)[0] == WaitFor(t);
    assert KeyActions(p) + [] == KeyActions(p);
  }

  /** A wait or query whose answer never comes stalls its script there. */
  lemma ExecAnswersRunOut(p: seq<Action>, g: Action, q: seq<Action>)
    requires !IsKey(g)
    ensures Exec(p + [g] + q, Expected(p)) == ScriptRun(Stalled, KeyActions(p), |Expected(p)|)
  {
    ExecAfterExpected(p, [g] + q, []);
    assert p + [g] + q == p + ([g] + q);
    assert Expected(p) + [] == Expected(p);
    assert ([g] + q)[0] == g;
    assert KeyActions(p) + [] == KeyActions(p);
  }

  /** If the password is rejected, the account step still completes: the
      confirmation is never typed, and the step is reported done. */
  lemma RejectedPasswordCompletes()
    ensures Exec(AccountScript, [Ok(true), Ok(true)])
      == ScriptRun(Completed, KeyActions(AccountPrefix), 2)
  {
    AccountPrefixWaitsOnce();
    var q := [TypeText("secret123"), PressKey(TabKey, 1), PressKey(TabKey, 2)];
    assert AccountScript == AccountPrefix + [ReturnIfText("keyboard requirements")] + q;
    ExecReturnsEarly(AccountPrefix, "keyboard requirements", q, []);
    assert [Ok(true), Ok(true)] == [Ok(true)] + [Ok(true)] + [];
  }

  /** Before its query the account step waits once. */
  lemma AccountPrefixWaitsOnce()
    ensures Expected(AccountPrefix) == [Ok(true)]
  {
    var p := AccountPrefix;
    assert Expected(p[5..]) == [];
    assert Expected(p[4..]) == [];
    assert Expected(p[3..]) == [];
    assert Expected(p[2..]) == [];
    assert Expected(p[1..]) == [];
  }

  // Key events.

  /** The events an action sends when it is performed. */
  function ActionKeys(a: Action): seq<Synthesis.KeyEvent> {
    match a
    case PressKey(k, n) => Synthesis.Press(k, n)
    case TypeText(s) => Synthesis.Type(s)
    case _ => []
  }

  /** The events of a sequence of actions, in order. */
  function Events(actions: seq<Action>): seq<Synthesis.KeyEvent> {
    if actions == [] then [] else ActionKeys(actions[0]) + Events(actions[1..])
  }

  lemma {:induction false} EventsAppend(a: seq<Action>, b: seq<Action>)
    ensures Events(a + b) == Events(a) + Events(b)
  {
    if a == [] {
      assert a + b == b;
    } else {
      assert (a + b)[0] == a[0] && (a + b)[1..] == a[1..] + b;
      EventsAppend(a[1..], b);
    }
  }

  /** Waits and queries send nothing: a script's events are those of its
      key actions. */
  lemma {:induction false} KeyActionsEvents(script: seq<Action>)
    ensures Events(KeyActions(script)) == Events(script)
  {
    if script != [] {
      var head := if IsKey(script[0]) then [script[0]] else [];
      KeyActionsEvents(script[1..]);
      EventsAppend(head, KeyActions(script[1..]));
      if IsKey(script[0]) {
        assert head[1..] == [];
      }
    }
  }

  /** Actions performed in order, stopping early, send a prefix of the
      events the full list sends. */
  lemma PrefixEvents(sent: seq<Action>, all: seq<Action>)
    requires sent <= all
    ensures Events(sent) <= Events(all)
  {
    assert all == sent + all[|sent|..];
    EventsAppend(sent, all[|sent|..]);
  }

  // Steps and screenshots.

  /** The state a step's outcome leaves it in. */
  function Final(o: Outcome): StepState {
    match o
    case Completed => Done
    case Failed(_) => Errored
    case Stalled => Running
  }

  /** A step as the wrapper runs it: the states it moves through and the
      outcome it passes on. */
  datatype StepRun = StepRun(steps: seq<Step>, history: seq<StepState>, outcome: Outcome)

  /** `step(_:callback:)`: mark the step running, run its script, then mark
      it done, or mark it errored and rethrow the same error. A script that
      never finishes leaves it running. */
  function RunStep(steps: seq<Step>, id: string, script: ScriptRun): (r: StepRun)
    ensures r.outcome == script.outcome
    ensures |r.history| == if script.outcome == Stalled then 1 else 2
    ensures r.history[0] == Running && r.history[|r.history| - 1] == Final(script.outcome)
    ensures r.steps == Update(steps, id, Final(script.outcome))
  {
    var running := Update(steps, id, Running);
    match script.outcome
    case Stalled => StepRun(running, [Running], Stalled)
    case Completed =>
      UpdateOverwrites(steps, id, Running, Done);
      StepRun(Update(running, id, Done), [Running, Done], Completed)
    case Failed(e) =>
      UpdateOverwrites(steps, id, Running, Errored);
      StepRun(Update(running, id, Errored), [Running, Errored], Failed(e))
  }

  /** The images kept from a sequence of captures: `nil` ones are skipped. */
  function Captured(frames: seq<Option<nat>>): (images: seq<Display.Image>)
    ensures |images| <= |frames|
    ensures (forall i :: 0 <= i < |frames| ==> frames[i].Some?) ==> |images| == |frames|
  {
    if frames == [] then []
    else
      Captured(frames[..|frames| - 1])
         + (match frames[|frames| - 1]
            case None => []
            case Some(f) => [Display.Image(f, None)])
  }

  /** Every capture is kept exactly when none came back `nil`: the run's
      ten screenshots are all there only if the display always had a frame. */
  lemma {:induction false} CapturedAll(frames: seq<Option<nat>>)
    ensures (forall i :: 0 <= i < |frames| ==> frames[i].Some?) <==> |Captured(frames)| == |frames|
  {
    if frames != [] {
      var init := frames[..|frames| - 1];
      CapturedAll(init);
      assert forall i :: 0 <= i < |init| ==> init[i] == frames[i];
    }
  }

  /** `screenshot(automator:)`: append the display's image if it has one,
      else leave the workflow alone. */
  function TakeScreenshot(w: Workflow, frame: Option<nat>): (r: Workflow)
    ensures r.steps == w.steps
    ensures r.screenshots == w.screenshots + Captured([frame])
  {
    var shot := Display.Screenshot(frame, None);
    match shot.result.value
    case None => w
    case Some(image) => w.(screenshots := w.screenshots + [image])
  }

  /** The steps after each of `ids` has been moved to `st`, in order. */
  function MarkAll(steps: seq<Step>, ids: seq<string>, st: StepState): seq<Step> {
    if ids == [] then steps
    else Update(MarkAll(steps, ids[..|ids| - 1], st), ids[|ids| - 1], st)
  }

  /** Every answer, and every key event, of the first `i` scripts run
      straight through. */
  function ExpectedUpTo(scripts: seq<seq<Action>>, i: nat): seq<Result<bool>>
    requires i <= |scripts|
  {
    if i == 0 then [] else ExpectedUpTo(scripts, i - 1) + Expected(scripts[i - 1])
  }

  function KeysUpTo(scripts: seq<seq<Action>>, i: nat): seq<Action>
    requires i <= |scripts|
  {
    if i == 0 then [] else KeysUpTo(scripts, i - 1) + KeyActions(scripts[i - 1])
  }

  /** Where script `j`'s answers begin when the scripts before it have run
      in turn on `answers`. */
  function Start(scripts: seq<seq<Action>>, answers: seq<Result<bool>>, j: nat): (pos: nat)
    requires j <= |scripts|
    ensures pos <= |answers|
  {
    if j == 0 then 0
    else
      var p := Start(scripts, answers, j - 1);
      p + Exec(scripts[j - 1], answers[p..]).used
  }

  /** How script `j` runs, on the answers left by the scripts before it. */
  function ScriptAt(scripts: seq<seq<Action>>, answers: seq<Result<bool>>, j: nat): ScriptRun
    requires j < |scripts|
  {
    Exec(scripts[j], answers[Start(scripts, answers, j)..])
  }

  /** Each of the first `i` scripts, run in turn, completes. */
  predicate CompletedUpTo(scripts: seq<seq<Action>>, answers: seq<Result<bool>>, i: nat)
    requires i <= |scripts|
  {
    forall j :: 0 <= j < i ==> ScriptAt(scripts, answers, j).outcome == Completed
  }

  /** A prefix stays a prefix when the longer sequence grows. */
  lemma PrefixExtend<T>(a: seq<T>, b: seq<T>, c: seq<T>)
    requires a <= b
    ensures a <= b + c
  {
    assert (b + c)[..|a|] == b[..|a|];
  }

  /** What follows a prefix `pre + e` of `xs`, after `pre`, starts with `e`. */
  lemma PrefixSplit<T>(pre: seq<T>, e: seq<T>, xs: seq<T>)
    requires pre + e <= xs
    ensures |pre| + |e| <= |xs|
    ensures xs[|pre|..] == e + xs[|pre| + |e|..]
  {
    forall k | 0 <= k < |e|
      ensures xs[|pre| + k] == e[k]
    {
      assert (pre + e)[|pre| + k] == e[k];
    }
  }

  lemma {:induction false} UpToGrows(scripts: seq<seq<Action>>, i: nat, j: nat)
    requires i <= j <= |scripts|
    ensures ExpectedUpTo(scripts, i) <= ExpectedUpTo(scripts, j)
    ensures KeysUpTo(scripts, i) <= KeysUpTo(scripts, j)
  {
    if i < j {
      UpToGrows(scripts, i, j - 1);
      PrefixExtend(ExpectedUpTo(scripts, i), ExpectedUpTo(scripts, j - 1), Expected(scripts[j - 1]));
      PrefixExtend(KeysUpTo(scripts, i), KeysUpTo(scripts, j - 1), KeyActions(scripts[j - 1]));
    }
  }

  /** Under the straight-through answers, script `i` completes with all its
      key actions and consumes exactly its own answers. */
  lemma SmoothStep(scripts: seq<seq<Action>>, i: nat, answers: seq<Result<bool>>, pos: nat)
    requires i < |scripts| && ExpectedUpTo(scripts, |scripts|) <= answers
    requires pos == |ExpectedUpTo(scripts, i)|
    ensures pos + |Expected(scripts[i])| == |ExpectedUpTo(scripts, i + 1)| <= |answers|
    ensures Exec(scripts[i], answers[pos..])
      == ScriptRun(Completed, KeyActions(scripts[i]), |Expected(scripts[i])|)
  {
    UpToGrows(scripts, i + 1, |scripts|);
    var e := Expected(scripts[i]);
    PrefixSplit(ExpectedUpTo(scripts, i), e, answers);
    var rest := answers[pos + |e|..];
    var here := answers[pos..];
    assert here == e + rest;
    ExecExpected(scripts[i], rest);
    assert Exec(scripts[i], here) == Exec(scripts[i], e + rest);
  }

  /** The key actions of script `i`, performed after those of the scripts
      before it, stay within all the listed ones. */
  lemma KeysStep(scripts: seq<seq<Action>>, i: nat, sent: seq<Action>, e: seq<Action>)
    requires i < |scripts| && sent == KeysUpTo(scripts, i) && e <= KeyActions(scripts[i])
    ensures sent + e <= KeysUpTo(scripts, |scripts|)
    ensures e == KeyActions(scripts[i]) ==> sent + e == KeysUpTo(scripts, i + 1)
  {
    UpToGrows(scripts, i + 1, |scripts|);
    assert KeysUpTo(scripts, i + 1) == sent + KeyActions(scripts[i]);
    assert sent + e <= KeysUpTo(scripts, i + 1);
  }

  lemma CapturedStep(frames: seq<Option<nat>>, i: nat)
    requires i < |frames|
    ensures Captured(frames[..i + 1]) == Captured(frames[..i]) + Captured([frames[i]])
  {
    assert frames[..i + 1][..i] == frames[..i];
  }

  lemma MarkStep(steps: seq<Step>, ids: seq<string>, i: nat, st: StepState)
    requires i < |ids|
    ensures MarkAll(steps, ids[..i + 1], st) == Update(MarkAll(steps, ids[..i], st), ids[i], st)
  {
    assert ids[..i + 1][..i] == ids[..i];
  }

  /** How a run ended: the workflow, the outcome, the index of the step it
      ended in (the number of steps when every step completed) and the key
      actions performed. */
  datatype RunResult = RunResult(workflow: Workflow, outcome: Outcome, reached: nat, sent: seq<Action>)

  /** The state of a run after its first `i` steps completed: those steps
      marked done, a screenshot taken after each (none after the last), all
      their key actions performed, and, when the answers let every script run
      straight through, exactly their answers consumed. */
  predicate Progress(
    w: Workflow, ids: seq<string>, scripts: seq<seq<Action>>, answers: seq<Result<bool>>, frames: seq<Option<nat>>,
    i: nat, steps: seq<Step>, shots: seq<Display.Image>, sent: seq<Action>, pos: nat)
    requires |scripts| == |ids| == |frames| + 1
  {
    i <= |ids| && pos == Start(scripts, answers, i)
    && CompletedUpTo(scripts, answers, i)
    && steps == MarkAll(w.steps, ids[..i], Done)
    && shots == w.screenshots + Captured(frames[..if i <= |frames| then i else |frames|])
    && sent <= KeysUpTo(scripts, |scripts|)
    && (i < |ids| ==> sent == KeysUpTo(scripts, i))
    && (i == |ids| ==> sent == KeysUpTo(scripts, i - 1) + ScriptAt(scripts, answers, i - 1).sent)
    && (ExpectedUpTo(scripts, |scripts|) <= answers ==>
          pos == |ExpectedUpTo(scripts, i)| && sent == KeysUpTo(scripts, i))
  }

  /** The screenshots after step `i` completed. */
  function ShotsAfter(frames: seq<Option<nat>>, i: nat, steps: seq<Step>, shots: seq<Display.Image>): seq<Display.Image> {
    if i < |frames| then TakeScreenshot(Workflow(steps, shots), frames[i]).screenshots else shots
  }

  /** A step that completes moves the run on to the next step. */
  lemma Advance(
    w: Workflow, ids: seq<string>, scripts: seq<seq<Action>>, answers: seq<Result<bool>>, frames: seq<Option<nat>>,
    i: nat, steps: seq<Step>, shots: seq<Display.Image>, sent: seq<Action>, pos: nat)
    requires |scripts| == |ids| == |frames| + 1
    requires forall k :: 0 <= k < |frames| ==> NoEarlyReturn(scripts[k])
    requires Progress(w, ids, scripts, answers, frames, i, steps, shots, sent, pos) && i < |ids|
    requires Exec(scripts[i], answers[pos..]).outcome == Completed
    ensures
      var script := Exec(scripts[i], answers[pos..]);
      var next := RunStep(steps, ids[i], script).steps;
      Progress(w, ids, scripts, answers, frames, i + 1,
               next, ShotsAfter(frames, i, next, shots), sent + script.sent, pos + script.used)
  {
    var script := Exec(scripts[i], answers[pos..]);
    var next := RunStep(steps, ids[i], script).steps;
    var smooth := ExpectedUpTo(scripts, |scripts|) <= answers;
    assert script == ScriptAt(scripts, answers, i);
    assert pos + script.used == Start(scripts, answers, i + 1);
    assert CompletedUpTo(scripts, answers, i + 1);
    assert next == MarkAll(w.steps, ids[..i + 1], Done) by {
      MarkStep(w.steps, ids, i, Done);
    }
    assert ShotsAfter(frames, i, next, shots)
      == w.screenshots + Captured(frames[..if i + 1 <= |frames| then i + 1 else |frames|]) by {
      if i < |frames| {
        CapturedStep(frames, i);
      }
    }
    assert sent + script.sent <= KeysUpTo(scripts, |scripts|)
      && (i + 1 < |ids| ==> sent + script.sent == KeysUpTo(scripts, i + 1)) by {
      ExecKeys(scripts[i], answers[pos..]);
      KeysStep(scripts, i, sent, script.sent);
    }
    assert smooth ==>
      pos + script.used == |ExpectedUpTo(scripts, i + 1)| && sent + script.sent == KeysUpTo(scripts, i + 1) by {
      if smooth {
        SmoothStep(scripts, i, answers, pos);
        KeysStep(scripts, i, sent, script.sent);
      }
    }
  }

  /** A step that throws or never finishes ends the run in that step, with
      its error taken from the answers and its key actions within the listed
      ones; it cannot happen when the answers let every script through. */
  lemma Stop(
    w: Workflow, ids: seq<string>, scripts: seq<seq<Action>>, answers: seq<Result<bool>>, frames: seq<Option<nat>>,
    i: nat, steps: seq<Step>, shots: seq<Display.Image>, sent: seq<Action>, pos: nat)
    requires |scripts| == |ids| == |frames| + 1
    requires Progress(w, ids, scripts, answers, frames, i, steps, shots, sent, pos) && i < |ids|
    requires Exec(scripts[i], answers[pos..]).outcome != Completed
    ensures
      var script := Exec(scripts[i], answers[pos..]);
      RunStep(steps, ids[i], script).steps == Update(MarkAll(w.steps, ids[..i], Done), ids[i], Final(script.outcome))
      && shots == w.screenshots + Captured(frames[..i])
      && (script.outcome.Failed? ==> Err(script.outcome.error) in answers)
      && sent + script.sent <= KeysUpTo(scripts, |scripts|)
      && !(ExpectedUpTo(scripts, |scripts|) <= answers)
  {
    var script := Exec(scripts[i], answers[pos..]);
    ExecKeys(scripts[i], answers[pos..]);
    KeysStep(scripts, i, sent, script.sent);
    if script.outcome.Failed? {
      assert answers[pos..][script.used - 1] == answers[pos + script.used - 1];
    }
    if ExpectedUpTo(scripts, |scripts|) <= answers {
      SmoothStep(scripts, i, answers, pos);
    }
  }

  /** The steps named `ids` run in order with their `scripts`, a screenshot
      after each step but the last, stopping at the first step that throws
      (rethrowing its error) or never finishes. `frames` is what the display
      showed at each screenshot. Only the last script may return early. */
  method RunSteps(
    w: Workflow, ids: seq<string>, scripts: seq<seq<Action>>,
    answers: seq<Result<bool>>, frames: seq<Option<nat>>)
    returns (r: RunResult)
    requires |scripts| == |ids| == |frames| + 1
    requires forall i :: 0 <= i < |frames| ==> NoEarlyReturn(scripts[i])
    ensures r.reached <= |ids|
    ensures r.outcome == Completed <==> r.reached == |ids|
    ensures r.outcome == Completed ==>
      r.workflow.steps == MarkAll(w.steps, ids, Done)
      && r.workflow.screenshots == w.screenshots + Captured(frames)
    ensures r.outcome != Completed ==>
      r.workflow.steps == Update(MarkAll(w.steps, ids[..r.reached], Done), ids[r.reached], Final(r.outcome))
      && r.workflow.screenshots == w.screenshots + Captured(frames[..r.reached])
    ensures r.outcome.Failed? ==> Err(r.outcome.error) in answers
    ensures r.sent <= KeysUpTo(scripts, |scripts|)
    ensures ExpectedUpTo(scripts, |scripts|) <= answers ==>
      r.outcome == Completed && r.sent == KeysUpTo(scripts, |scripts|)
    ensures CompletedUpTo(scripts, answers, r.reached)
    ensures r.reached < |ids| ==>
      r.outcome == ScriptAt(scripts, answers, r.reached).outcome
      && r.sent == KeysUpTo(scripts, r.reached) + ScriptAt(scripts, answers, r.reached).sent
    ensures r.reached == |ids| ==>
      r.sent == KeysUpTo(scripts, |ids| - 1) + ScriptAt(scripts, answers, |ids| - 1).sent
  {
    var steps := w.steps;
    var shots := w.screenshots;
    var sent := [];
    var pos: nat := 0;
    var i: nat := 0;
    assert ids[..0] == [] && frames[..0] == [];
    while i < |ids|
      invariant Progress(w, ids, scripts, answers, frames, i, steps, shots, sent, pos)
    {
      var script := Exec(scripts[i], answers[pos..]);
      var step := RunStep(steps, ids[i], script);
      if script.outcome != Completed {
        Stop(w, ids, scripts, answers, frames, i, steps, shots, sent, pos);
        return RunResult(Workflow(step.steps, shots), script.outcome, i, sent + script.sent);
      }
      Advance(w, ids, scripts, answers, frames, i, steps, shots, sent, pos);
      shots := ShotsAfter(frames, i, step.steps, shots);
      steps := step.steps;
      sent := sent + script.sent;
      pos := pos + script.used;
      i := i + 1;
    }
    Finish(w, ids, scripts, answers, frames, steps, shots, sent, pos);
    return RunResult(Workflow(steps, shots), Completed, |ids|, sent);
  }

  /** Once every step has completed, every step is done, every screenshot
      was taken and, with the straight-through answers, every key action was
      performed. */
  lemma Finish(
    w: Workflow, ids: seq<string>, scripts: seq<seq<Action>>, answers: seq<Result<bool>>, frames: seq<Option<nat>>,
    steps: seq<Step>, shots: seq<Display.Image>, sent: seq<Action>, pos: nat)
    requires |scripts| == |ids| == |frames| + 1
    requires Progress(w, ids, scripts, answers, frames, |ids|, steps, shots, sent, pos)
    ensures steps == MarkAll(w.steps, ids, Done) && shots == w.screenshots + Captured(frames)
    ensures sent <= KeysUpTo(scripts, |scripts|)
    ensures ExpectedUpTo(scripts, |scripts|) <= answers ==> sent == KeysUpTo(scripts, |scripts|)
  {
    assert ids[..|ids|] == ids && frames[..|frames|] == frames;
  }

  /** `run(automator:)`: the eleven steps of the setup assistant, with a
      screenshot after each of the first ten. */
  method Run(w: Workflow, answers: seq<Result<bool>>, frames: seq<Option<nat>>) returns (r: RunResult)
    requires |frames| == |RunIds| - 1
    ensures r.reached <= |RunIds|
    ensures r.outcome == Completed <==> r.reached == |RunIds|
    ensures r.outcome == Completed ==>
      r.workflow.steps == MarkAll(w.steps, RunIds, Done)
      && r.workflow.screenshots == w.screenshots + Captured(frames)
    ensures r.outcome != Completed ==>
      r.workflow.steps == Update(MarkAll(w.steps, RunIds[..r.reached], Done), RunIds[r.reached], Final(r.outcome))
      && r.workflow.screenshots == w.screenshots + Captured(frames[..r.reached])
    ensures r.outcome.Failed? ==> Err(r.outcome.error) in answers
    ensures r.sent <= KeysUpTo(Scripts, |Scripts|)
    ensures ExpectedUpTo(Scripts, |Scripts|) <= answers ==>
      r.outcome == Completed && r.sent == KeysUpTo(Scripts, |Scripts|)
    ensures CompletedUpTo(Scripts, answers, r.reached)
    ensures r.reached < |RunIds| ==>
      r.outcome == ScriptAt(Scripts, answers, r.reached).outcome
      && r.sent == KeysUpTo(Scripts, r.reached) + ScriptAt(Scripts, answers, r.reached).sent
    ensures r.reached == |RunIds| ==>
      r.sent == KeysUpTo(Scripts, |RunIds| - 1) + ScriptAt(Scripts, answers, |RunIds| - 1).sent
  {
    OnlyAccountReturnsEarly();
    r := RunSteps(w, RunIds, Scripts, answers, frames);
  }

  // The application's steps.

  /** The steps the application starts the workflow with
      (AppController.swift). */
  const DefaultSteps: seq<Step> := [
    NewStep("booting", "Booting"),
    NewStep("hello", "Hello"),
    NewStep("language", "Language"),
    NewStep("country", "Country"),
    NewStep("localization", "Localization"),
    NewStep("accessibility", "Accessibility"),
    NewStep("privacy", "Data"),
    NewStep("migration", "Migration"),
    NewStep("appleid", "Apple"),
    NewStep("terms", "Terms"),
    NewStep("account", "Account")
  ]

  /** The application lists exactly the run's steps, once each and in run
      order, all idle. */
  lemma DefaultStepsMatchRun()
    ensures |DefaultSteps| == |RunIds|
    ensures forall i :: 0 <= i < |RunIds| ==> DefaultSteps[i].id == RunIds[i] && DefaultSteps[i].state == Idle
    ensures UniqueIds(DefaultSteps)
  {
    assert forall i :: 0 <= i < |RunIds| ==> DefaultSteps[i].id == RunIds[i];
    RunIdsDistinct();
  }

  /** No two steps of the run share an id. */
  lemma RunIdsDistinct()
    ensures forall i, j :: 0 <= i < j < |RunIds| ==> RunIds[i] != RunIds[j]
  {
    forall i, j | 0 <= i < j < |RunIds|
      ensures RunIds[i] != RunIds[j]
    {
      var a, b := RunIds[i], RunIds[j];
      if |a| == |b| {
        assert a[0] != b[0] || a[1] != b[1];
      }
    }
  }

  /** For steps whose ids are `ids`, once each, marking the first `k` ids
      moves exactly the first `k` steps. */
  lemma {:induction false} MarkPrefix(steps: seq<Step>, ids: seq<string>, k: nat, st: StepState)
    requires |steps| == |ids| && UniqueIds(steps)
    requires forall i :: 0 <= i < |ids| ==> steps[i].id == ids[i]
    requires k <= |ids|
    ensures |MarkAll(steps, ids[..k], st)| == |steps|
    ensures forall i :: 0 <= i < |steps| ==>
      MarkAll(steps, ids[..k], st)[i] == (if i < k then steps[i].(state := st) else steps[i])
  {
    if k > 0 {
      var before := MarkAll(steps, ids[..k - 1], st);
      MarkPrefix(steps, ids, k - 1, st);
      MarkStep(steps, ids, k - 1, st);
      assert UniqueIds(before) by {
        assert forall i :: 0 <= i < |steps| ==> before[i].id == steps[i].id;
      }
      UpdateUnique(before, ids[k - 1], st);
      var after := Update(before, ids[k - 1], st);
      forall i | 0 <= i < |steps|
        ensures after[i] == (if i < k then steps[i].(state := st) else steps[i])
      {
        var prior := if i < k - 1 then steps[i].(state := st) else steps[i];
        assert before[i] == prior && prior.id == steps[i].id;
        assert after[i] == (if steps[i].id == ids[k - 1] then prior.(state := st) else prior);
        if i != k - 1 {
          assert steps[i].id != steps[k - 1].id;
        }
      }
    }
  }

  /** For steps listed once each in run order and all idle, a completed
      run shows every step done; a run that ended in step `k` shows the
      steps before it done, step `k` errored or still running, and the later
      ones idle. */
  lemma RunStates(base: seq<Step>, ids: seq<string>, r: RunResult)
    requires |base| == |ids| && UniqueIds(base)
    requires forall i :: 0 <= i < |ids| ==> base[i].id == ids[i] && base[i].state == Idle
    requires r.reached <= |ids|
    requires r.outcome == Completed <==> r.reached == |ids|
    requires r.outcome == Completed ==> r.workflow.steps == MarkAll(base, ids, Done)
    requires r.outcome != Completed ==>
      r.workflow.steps == Update(MarkAll(base, ids[..r.reached], Done), ids[r.reached], Final(r.outcome))
    ensures |r.workflow.steps| == |ids|
    ensures forall i :: 0 <= i < |ids| ==> r.workflow.steps[i].id == ids[i]
    ensures forall i :: 0 <= i < |ids| ==>
      r.workflow.steps[i].state == (if i < r.reached then Done else if i == r.reached then Final(r.outcome) else Idle)
  {
    var k := r.reached;
    MarkPrefix(base, ids, k, Done);
    var marked := MarkAll(base, ids[..k], Done);
    if r.outcome == Completed {
      assert ids[..|ids|] == ids;
    } else {
      assert UniqueIds(marked) by {
        assert forall i :: 0 <= i < |marked| ==> marked[i].id == base[i].id;
      }
      UpdateUnique(marked, ids[k], Final(r.outcome));
      forall i | 0 <= i < |ids|
        ensures r.workflow.steps[i].id == ids[i]
        ensures r.workflow.steps[i].state == (if i < k then Done else if i == k then Final(r.outcome) else Idle)
      {
        assert marked[i].id == ids[i];
        if i != k {
          assert base[i].id != base[k].id;
        }
      }
    }
  }

  /** The application's steps, run by `run(automator:)`. */
  lemma DefaultRunStates(r: RunResult)
    requires r.reached <= |RunIds|
    requires r.outcome == Completed <==> r.reached == |RunIds|
    requires r.outcome == Completed ==> r.workflow.steps == MarkAll(DefaultSteps, RunIds, Done)
    requires r.outcome != Completed ==>
      r.workflow.steps == Update(MarkAll(DefaultSteps, RunIds[..r.reached], Done), RunIds[r.reached], Final(r.outcome))
    ensures |r.workflow.steps| == |RunIds|
    ensures forall i :: 0 <= i < |RunIds| ==> r.workflow.steps[i].id == RunIds[i]
    ensures forall i :: 0 <= i < |RunIds| ==>
      r.workflow.steps[i].state == (if i < r.reached then Done else if i == r.reached then Final(r.outcome) else Idle)
  {
    DefaultStepsMatchRun();
    RunStates(DefaultSteps, RunIds, r);
  }
}
